=== FILE: README.md ===
# tcp-broadcast, modelled in Dafny

`tcp-broadcast` is a single-threaded line-oriented chat server. It listens on
one socket and uses `select` to multiplex every client. Each client owns a
4096-byte input buffer. Complete lines are cut out of that buffer and parsed
as a command word plus an optional argument. The commands are:

- `ping` is answered with `pong`.
- `pong` answers the server's own keepalive probe.
- `quit` gets `bye` and a disconnect.
- `broadcast <msg>` is sent to every connected client as
  `broadcast <ident> <msg>`.

Anything else gets the list of commands. After every pass over a client, a
client silent for 5 seconds is probed with `ping`. One still silent 10 seconds
after its last input, with the probe unanswered, is told it timed out and
is dropped. A write that fails drops its recipient.

The model is pure. The connection table is a `Server` value (`Table`), and
every operation is a function from one server state to the next. The network
is replaced by parameters:

- the bytes waiting in a socket;
- what `accept()` returned;
- the clock reading;
- the set `broken` of fds whose writes fail.

The output each client sees is an event log: `Sent(fd, bytes)` and
`Closed(fd)`.

Modules:

- `Bytes`: bytes, `Option`, ASCII literals and `FirstIndex`. `FirstIndex` is
  `strchr` on a NUL-free sequence.
- `Framer`: the line framer of `handle_data`. It covers `\n` cutting, the
  trailing-`\r` strip and the forced flush of a full buffer without `\n`. It
  also proves that the lines do not depend on how the stream is split into
  reads.
- `Commands`: the parser of `handle_line` (leading spaces, the first space,
  the run of spaces before the argument) and its dispatch table.
- `Keepalive`: the probe/expire rule and what it does to a silent client over
  successive passes.
- `Table`: client records, the table invariant, `accept_connection`,
  `handle_client_exit` and `do_write`.
- `Session`: `handle_line` with the broadcast fan-out, `handle_data`, the
  keepalive block, and one iteration of the `select` loop.
- `Scenarios`: concrete exchanges worked through the model, such as
  `ping\npong\n` in one read, `quit`, `foo bar`, and a broadcast to three
  clients.
- `RawBuffer`: the framing loop as the C code performs it on the fixed
  array, apart from the NULs `handle_line` writes over spaces (see "## Left
  out"). This covers the `size_t` count, `strchr` up to the first NUL,
  the NUL written over `\r`, and the copy loop that does not re-terminate the
  buffer. It also holds a repaired variant that re-terminates, proved to
  frame exactly like `Framer`.

## Model

| member | source | states |
|---|---|---|
| `Framer.Read` | tcp-broadcast.c:195-196 | a read takes a prefix of the waiting bytes, never more than the 4095 bytes the buffer can hold beside its NUL, and all of them when they fit |
| `Framer.NextLine` | tcp-broadcast.c:205-227 | a pass of the loop waits exactly when the bytes hold no `\n` and are fewer than 4095 |
| `Framer.NextLineShape` | tcp-broadcast.c:213-220 | a terminated line is the bytes before the first `\n` with at most one trailing `\r` removed, that `\n` lies within the first 4095 bytes, and the rest is everything after it; a flushed line is the full 4095 bytes, and concatenating line and rest gives back the input |
| `Framer.ForcedFlush` | tcp-broadcast.c:207-212 | 4095 bytes without `\n` are handed on whole, `\r` included, and leave the buffer empty |
| `Framer.CrLfAtBoundary` | tcp-broadcast.c:205-220 | a 4094-byte line ended by `\r\n` does not fit: the full buffer is flushed with its `\r`, and the `\n` that follows ends an empty line |
| `Framer.Lines` | tcp-broadcast.c:205-228 | the loop stops only once what stays buffered has no `\n` and fewer than 4095 bytes, and it never buffers more than it was given |
| `Framer.LinesKeepsTail` | tcp-broadcast.c:222-225 | what stays buffered is the tail of the bytes framed: nothing is reordered or invented |
| `Framer.LinesBounded` | tcp-broadcast.c:205-228 | no emitted line contains `\n` or exceeds 4095 bytes |
| `Framer.LinesCons` | tcp-broadcast.c:213-225 | a short line not ending in `\r`, followed by `\n`, is emitted unchanged, and framing resumes right after that `\n` |
| `Framer.NextLineAppend` | tcp-broadcast.c:205-225 | bytes arriving later never change a line that is already complete |
| `Framer.LinesAppend` | tcp-broadcast.c:201-228 | framing a stream in two parts, keeping the leftover of the first, gives the same lines as framing it at once |
| `Framer.ChunkingInvariance` | tcp-broadcast.c:192-228 | reading a stream in any chunks, buffering the leftovers between reads, yields exactly the lines and leftover of framing the concatenated stream |
| `Framer.SplitIrrelevant` | tcp-broadcast.c:192-228 | two splittings of the same stream into reads produce the same lines and the same buffered tail |
| `Commands.SkipSpaces` | tcp-broadcast.c:238-239 | skipping spaces removes exactly the leading run of spaces: the input is that many spaces followed by the result, which is empty or starts with a non-space |
| `Commands.Parse` | tcp-broadcast.c:236-245 | the parsed word has no space; the argument does not start with a space; an empty word never carries an argument |
| `Commands.ParseRender` | tcp-broadcast.c:236-245 | any amount of leading space and any non-empty run of separating spaces around a canonical command parses back to that command |
| `Commands.ParseComplete` | tcp-broadcast.c:236-245 | every line is the leading spaces, the word, and (if there is an argument) a run of spaces and the argument: parsing drops only spaces |
| `Commands.Interpret` | tcp-broadcast.c:250-271 | only `quit` closes the sender, and closing comes last; a broadcast happens exactly for `broadcast` with an argument, even an empty one, and carries `broadcast <ident> <arg>\n` |
| `Keepalive.Decide` | tcp-broadcast.c:151-159 | a probe is due exactly when the client has been idle 5 s with no probe outstanding; expiry exactly when idle 10 s with a probe outstanding |
| `Keepalive.SilentRun` | tcp-broadcast.c:141-160 | the verdicts of successive passes over a client that sends nothing: at most one per pass, an expiry only as the last verdict, and the run stops short of the passes only on an expiry |
| `Keepalive.AtMostOneProbe` | tcp-broadcast.c:152-154 | over any run of passes a silent client receives at most one probe, none if one is already outstanding |
| `Keepalive.ExpiryOnlyAfterDeadline` | tcp-broadcast.c:152-158 | an expiry is the last verdict, comes only 10 s after the last input, and only after a probe that went unanswered |
| `Keepalive.ExpiryWhileAwaiting` | tcp-broadcast.c:155-158 | a silent client with a probe outstanding is dropped, and the run ends with that expiry no later than the first pass past the deadline |
| `Keepalive.SilentClientExpires` | tcp-broadcast.c:149-160 | a client that never answers is dropped once two passes have happened past the deadline, at the latest by the second of them |
| `Table.Unregister` | tcp-broadcast.c:274-284 | the client loses its record and its watch bit, nobody else changes, the table invariant is kept, and the fd is closed only if it had a record |
| `Table.UnregisterTwice` | tcp-broadcast.c:277-283 | unregistering an fd a second time changes nothing |
| `Table.Write` | tcp-broadcast.c:286-292 | a write either appends to the recipient's output or, when it fails, unregisters that recipient and does nothing else |
| `Table.Accept` | tcp-broadcast.c:165-190 | a failed accept changes nothing; an fd at or above FD_SETSIZE is closed at once; any other fd gets a fresh record with an empty buffer and no probe outstanding, a watch bit and a `ping` greeting, or is dropped if that greeting fails |
| `Session.Ascending` | tcp-broadcast.c:259-260 | the broadcast visits the registered fds in strictly ascending order, each exactly once |
| `Session.Fanout` | tcp-broadcast.c:259-266 | writing to each listed fd that still has a record keeps the table invariant; clients only disappear, and surviving records are unchanged |
| `Session.FanoutDelivers` | tcp-broadcast.c:259-266 | each listed recipient gets the text in order, or is dropped when its write fails, and no other client is touched |
| `Session.BroadcastReachesAll` | tcp-broadcast.c:257-266 | a broadcast delivers once to every registered client, the sender included, in ascending fd order, and the survivors are exactly those whose writes succeeded |
| `Session.ClearProbe` | tcp-broadcast.c:252-253 | `pong` clears the sender's outstanding probe and writes nothing |
| `Session.HandleLine` | tcp-broadcast.c:232-271 | handling a line keeps the table invariant; clients only disappear; every surviving record keeps its buffer, name and last activity; only the sender's probe flag may change, and only to cleared |
| `Session.DispatchLines` | tcp-broadcast.c:205-228 | handling the framed lines in order keeps the table invariant; clients only disappear; surviving records keep buffer, name and last activity, and only the reader's probe flag may change, to cleared |
| `Session.DispatchAppend` | tcp-broadcast.c:205-228 | lines are handled one after another: two batches handled in turn are one batch |
| `Session.HandleData` | tcp-broadcast.c:192-230 | a read of nothing unregisters the client; otherwise the client is marked alive with no probe outstanding and keeps exactly the framer's leftover; other records are untouched |
| `Session.Supervise` | tcp-broadcast.c:149-160 | on the keepalive verdict: nothing when quiet; on a probe, `ping` and the probe flag set (or the client dropped if the write fails); on expiry, the timeout notice and the client gone |
| `Session.Visit` | tcp-broadcast.c:141-160 | serving one fd (an accept on the listener, a read on a client) and then its keepalive block keeps the table invariant, and a client's turn never adds a client |
| `Session.Iterate` | tcp-broadcast.c:126-162 | after one `select` iteration the table invariant holds again: every fd except the listener is watched exactly when it has a record |
| `Session.PingIsAnswered` | tcp-broadcast.c:250-251 | `ping`, with or without an argument, is answered with `pong` and nothing else changes |
| `Session.PongClearsProbe` | tcp-broadcast.c:252-253 | `pong` only clears the probe flag |
| `Session.QuitCloses` | tcp-broadcast.c:254-256 | `quit` writes `bye` (unless that write fails) and the client is closed and gone from the table and the watch set |
| `Session.BroadcastIsFannedOut` | tcp-broadcast.c:257-266 | `broadcast <arg>` sends `broadcast <ident> <arg>\n` to every client in ascending fd order and drops exactly the failing recipients |
| `Session.OtherIsUnknown` | tcp-broadcast.c:267-271 | any other word, and `broadcast` without an argument, gets the command list and nothing else changes |
| `Session.SuperviseStep` | tcp-broadcast.c:149-159 | one keepalive pass removes the client exactly on an expiry verdict or on a probe whose write fails, and otherwise keeps its record with the probe flag set exactly when a probe is or already was outstanding |
| `Session.PassesFollowSilentRun` | tcp-broadcast.c:141-160 | the server's passes over a client that sends nothing remove it exactly when the verdict run of `Keepalive.SilentRun` reaches an expiry, or reaches a probe and the client's writes fail |
| `Session.SilentClientDropped` | tcp-broadcast.c:149-160 | a registered client that sends nothing is gone after two passes past the 10 s deadline, whether or not its writes fail |
| `Session.TwoReadsAsOne` | tcp-broadcast.c:192-228 | when the client survives a first read, a second read leaves the server as one read of both chunks at the later time would: the lines handled are those framed from the concatenated bytes, whatever the split |
| `Session.TwoReadsFit` | tcp-broadcast.c:195-204 | when both chunks fit in the buffer together, `handle_data` on one chunk and then the other equals `handle_data` on their concatenation |
| `Session.ActivityDefersProbe` | tcp-broadcast.c:199-202 | right after a non-empty read, no keepalive pass before 5 s have passed touches the client |
| `Scenarios.IncreasingUnique` | tcp-broadcast.c:259-260 | the fd order of the broadcast loop is determined by the set of fds alone |
| `Scenarios.PartialLineWaits` | tcp-broadcast.c:205-251 | `ping\npo` in one read is answered with `pong`, and `po` stays buffered until the rest of its line arrives |
| `Scenarios.SplitPing` | tcp-broadcast.c:192-251 | `ping\n` arriving as `pi`, then `ng\n`, is answered with `pong` exactly as one read would be, and nothing stays buffered |
| `Scenarios.MultiLineRead` | tcp-broadcast.c:205-253 | `ping\npong\n` in one read yields one `pong` reply and no other output; the client stays, marked alive |
| `Scenarios.QuitScenario` | tcp-broadcast.c:254-256 | `quit\n` produces `bye`, then a close, and the client is forgotten and unwatched |
| `Scenarios.UnknownScenario` | tcp-broadcast.c:267-271 | `foo bar\n` gets the command list and the client stays |
| `Scenarios.BroadcastToTrio` | tcp-broadcast.c:257-266 | with clients on fds 4, 5 and 6, `broadcast hello` from fd 4 reaches 4, 5 and 6 in that order and nobody is dropped |
| `RawBuffer.SizeSub` | tcp-broadcast.c:225 | `size_t` subtraction wraps modulo 2^64 |
| `RawBuffer.Zeroed` | tcp-broadcast.c:181 | a new record's buffer is all NUL with a count of 0: a terminated buffer holding no bytes |
| `RawBuffer.Strchr` | tcp-broadcast.c:206 | `strchr` finds the first `\n` before any NUL, reports a NUL first, or runs off the array |
| `RawBuffer.ReadAppends` | tcp-broadcast.c:195-204 | a read into a terminated buffer, asking for at most the room left beside the NUL, leaves a terminated buffer holding the old bytes followed by the bytes read, which is the `buf + got` that `Framer` frames |
| `RawBuffer.CopyLoopMoves` | tcp-broadcast.c:223-224 | the in-place loop, copying one byte at a time from an offset of at least 1, leaves the bytes from the offset up to the count at the front and every other slot as it was |
| `RawBuffer.Turn` | tcp-broadcast.c:205-227 | one turn of the loop as written waits exactly when `strchr` meets a NUL before any `\n` and the count is below 4095; an emitted line holds no NUL and the array keeps its 4096 bytes |
| `RawBuffer.FixedTurnFrames` | tcp-broadcast.c:205-228 | with the buffer re-terminated after the move, each turn emits the line `Framer.NextLine` cuts, keeps exactly its rest with a NUL after it, and waits exactly when the model waits |
| `RawBuffer.FlushFrames` | tcp-broadcast.c:207-212 | a full buffer without `\n` is handed on whole and the buffer restarts empty |
| `RawBuffer.StaleNewline` | tcp-broadcast.c:213-225 | as written, `a\r\nbc` read into a fresh record hands on `a`, then `bc` before its `\n` has arrived, leaves the count at 2^64 - 1, and the next turn writes out of bounds |
| `RawBuffer.CrlfWaits` | tcp-broadcast.c:213-225 | the intended framing of `a\r\nbc` emits `a` and keeps `bc` until its `\n` arrives |
| `RawBuffer.StaleNewlineBare` | tcp-broadcast.c:213-225 | as written, `x\n\nR` read into a fresh record, with no `\r` in it, hands on `x`, the empty line, then `RR`, a line never sent; the count becomes 2^64 - 2 and the next turn writes out of bounds |
| `RawBuffer.BareWaits` | tcp-broadcast.c:213-225 | the intended framing of `x\n\nR` emits `x` and the empty line, and keeps `R` until its `\n` arrives |

## Left out

- Socket setup is not modelled: `main`, `listen_on`, port parsing with `atoi`, Unix-domain paths and `bind`/`listen` errors. The model starts from a listening fd.
- The signal handler is not modelled. SIGPIPE being ignored is why a failed write is only an error return, which is how `broken` treats it.
- `select` itself is left out: which fds are ready, and what they deliver, is the `ready` map given to `Session.Iterate`. Its `EINTR` exit and the one-second timeout are left out too.
- The clock is a parameter. Each iteration reads it once, while the source calls `time(NULL)` separately per client and per read. `time_t` is an unbounded integer, and the `int` truncation of `since_last_seen` at line 151 is not modelled.
- The client's ident (`inet_ntoa` plus the port, formatted by `sprintf` at lines 183-186) is an opaque byte string supplied with the accepted connection.
- `malloc` failure at line 180 is not modelled: the record is always allocated.
- Partial writes are not modelled. A write either delivers all of its bytes or fails, and `broken` says which fds fail.
- The five `do_write` calls of one broadcast recipient (lines 261-265) are merged into one write of the whole text. Under the all-or-nothing write model, the first failure drops the recipient and the later writes go to a closed fd, so the log is the same.
- Session.HandleData: it requires NUL-free input. A NUL byte inside a line makes the C string functions see a shorter line; only `RawBuffer` models that, through `Strchr` and `CString`.
- FD_SETSIZE is taken as 1024, glibc's value. It is not defined in the source.
- Processing stops once a connection is closed. This affects the remaining lines of a read after `quit` and the keepalive block after an fd was dropped in the same pass. The C code keeps using the freed record in those cases (use after free, or a NULL dereference at lines 154, 196, 223-225, 262 and 264). The model does not follow that undefined behaviour.
- A ready fd whose record was dropped earlier in the same iteration, by a failed broadcast write, is skipped. The C code would dereference NULL at line 196.
- Session.BroadcastAll: when the sender's own write fails partway through a broadcast, the fan-out goes on sending the text built before the loop to the remaining fds. The C code has freed the sender's record by then, and reads `c->ident` (line 262) and `arg`, which points into that record's buffer (line 264), from freed memory. What those later writes would carry is undefined, so the model keeps the text as it was.
- Table.Unregister: `handle_client_exit` calls `close` on every call (line 283), even when the fd has no record left. This happens on a failed `bye` before the quit's own exit, on a failed timeout notice, and on the later writes to a recipient already dropped mid-broadcast. The model logs `Closed` only for the first close. A second `close` of a closed fd only fails, and no accept can reuse the fd in between.
- `RawBuffer` does not model the NULs that `handle_line` writes over the separating spaces (line 243). After the move-to-front these bytes are overwritten or lie beyond the count, so they do not affect framing of a sealed buffer.
- Session.Iterate: its contract states the table invariant after an iteration. It does not state the full output of an iteration; that is given member by member through `HandleData`, `Supervise` and `Table.Accept`.

## Findings

| source | as written | input that shows it | evidently intended | confidence | as-written member | corrected member |
|---|---|---|---|---|---|---|
| tcp-broadcast.c:213-225 | after a line, the rest is copied to the front but no NUL is written at the new count `buf_len`; the next `strchr` runs on past the held bytes into what earlier turns left behind, and a `\n` there (the old terminator, or a later line's `\n` already moved forward) ends a line early, hands on bytes the client never sent as one line, and `buf_len -= next_line_offset` wraps below zero | `a\r\nbc` read into a fresh record: `a`, then `bc` without its `\n`, then `buf_len` = 2^64 - 1; `x\n\nR`: `x`, the empty line, then `RR`, then `buf_len` = 2^64 - 2 (`RawBuffer.StaleNewlineBare`); either way the next turn writes a NUL far outside the buffer | keep the unfinished rest buffered until its `\n` arrives (write `buf[buf_len] = '\0'` after the move) | not executed | `RawBuffer.StaleNewline` | `RawBuffer.Turn` | tcp-broadcast.c:205-227 | one turn of the loop as written waits exactly when `strchr` meets a NUL before any `\n` and the count is below 4095; an emitted line holds no NUL and the array keeps its 4096 bytes |
| `RawBuffer.FixedTurnFrames` |

=== FILE: bytes.dfy ===
/** Octets, optional values and the few ASCII constants the line protocol uses. */
module Bytes {

  /** One octet of a socket's byte stream (a `char` of the C buffers). */
  type Byte = bv8

  /** A value that may be absent, in place of a NULL pointer. */
  datatype Option<T> = None | Some(value: T)

  const NUL: Byte := 0
  const LF: Byte := 10
  const CR: Byte := 13
  const SP: Byte := 32

  /** The bytes of a 7-bit text literal; every string the server emits is one. */
  function Ascii(s: string): (r: seq<Byte>)
    ensures |r| == |s|
  {
    seq(|s|, i requires 0 <= i < |s| => ((s[i] as int) % 256) as Byte)
  }

  /** Input the C string functions see whole: no embedded NUL cuts it short. */
  predicate NulFree(s: seq<Byte>) {
    NUL !in s
  }

  /** Index of the first `b` in `s`, if any (what `strchr` looks for). */
  function FirstIndex(s: seq<Byte>, b: Byte): (r: Option<nat>)
    ensures r.Some? ==> r.value < |s| && s[r.value] == b && b !in s[..r.value]
    ensures r.None? ==> b !in s
  {
    if s == [] then None
    else if s[0] == b then Some(0)
    else match FirstIndex(s[1..], b)
      case None => None
      case Some(k) =>
        assert s[..k + 1] == [s[0]] + s[1..][..k];
        Some(k + 1)
  }

  /** The first occurrence is determined by its defining property. */
  lemma FirstIndexAt(s: seq<Byte>, b: Byte, k: nat)
    requires k < |s| && s[k] == b && b !in s[..k]
    ensures FirstIndex(s, b) == Some(k)
  {
    assert s[k] in s;
  }
}

=== FILE: commands.dfy ===
/**
 The command interpreter of `handle_line`: a framed line is split into a
 command word and an optional argument, and an exact-match table maps the
 command onto the actions the server performs for the sender.
 */
module Commands {
  import opened Bytes

  /** A parsed line: the command word and, when a space followed it, the argument. */
  datatype Command = Command(name: seq<Byte>, arg: Option<seq<Byte>>)

  /** `n` separator bytes. Only the space byte separates; tabs do not. */
  function Spaces(n: nat): (r: seq<Byte>)
    ensures |r| == n && forall i :: 0 <= i < n ==> r[i] == SP
  {
    seq(n, _ => SP)
  }

  /** `s` without its leading run of spaces. */
  function SkipSpaces(s: seq<Byte>): (r: seq<Byte>)
    ensures |r| <= |s| && s == Spaces(|s| - |r|) + r
    ensures r == [] || r[0] != SP
    decreases |s|
  {
    if s != [] && s[0] == SP then
      var r := SkipSpaces(s[1..]);
      assert s == [SP] + s[1..];
      assert Spaces(|s| - |r|) == [SP] + Spaces(|s[1..]| - |r|);
      r
    else
      assert Spaces(0) == [];
      s
  }

  /** Parsing a line: skip leading spaces, cut the word at the first space, drop the run of spaces after it. */
  function Parse(line: seq<Byte>): (c: Command)
    ensures Canonical(c)
  {
    var cmd := SkipSpaces(line);
    match FirstIndex(cmd, SP)
    case None => Command(cmd, None)
    case Some(k) => Command(cmd[..k], Some(SkipSpaces(cmd[k..])))
  }

  /** The commands `Parse` can produce: a space-free word, an argument that does not start with a space, and no argument after an empty word. */
  predicate Canonical(c: Command) {
    && SP !in c.name
    && (c.arg.Some? ==> c.arg.value == [] || c.arg.value[0] != SP)
    && (c.name == [] ==> c.arg.None?)
  }

  /** A line that spells `c`: `lead` spaces, the word, then `gap + 1` spaces and the argument if there is one. */
  function Render(lead: nat, c: Command, gap: nat): seq<Byte> {
    Spaces(lead) + c.name + (match c.arg
                             case None => []
                             case Some(a) => Spaces(gap + 1) + a)
  }

  /** Parsing undoes rendering: any spacing around a canonical command parses back to it. */
  lemma ParseRender(lead: nat, c: Command, gap: nat)
    requires Canonical(c)
    ensures Parse(Render(lead, c, gap)) == c
  {
    var line := Render(lead, c, gap);
    var tail := c.name + (match c.arg case None => [] case Some(a) => Spaces(gap + 1) + a);
    assert line == Spaces(lead) + tail;
    SkipLeading(lead, tail);
    if c.name == [] {
      assert tail == [];
    } else {
      assert tail[0] == c.name[0];
    }
    match c.arg
    case None =>
      assert tail == c.name;
    case Some(a) =>
      var k := |c.name|;
      assert tail[..k] == c.name;
      assert tail[k] == SP;
      FirstIndexAt(tail, SP, k);
      assert tail[k..] == Spaces(gap + 1) + a;
      SkipLeading(gap + 1, a);
  }

  /** Leading spaces in front of a word that does not start with one are exactly what `SkipSpaces` drops. */
  lemma {:induction false} SkipLeading(n: nat, s: seq<Byte>)
    requires s == [] || s[0] != SP
    ensures SkipSpaces(Spaces(n) + s) == s
  {
    if n > 0 {
      assert Spaces(n) + s == [SP] + (Spaces(n - 1) + s);
      SkipLeading(n - 1, s);
    } else {
      assert Spaces(n) + s == s;
    }
  }

  /** Every line is a rendering of what it parses to: nothing but spaces is dropped. */
  lemma ParseComplete(line: seq<Byte>) returns (lead: nat, gap: nat)
    ensures line == Render(lead, Parse(line), gap)
  {
    var cmd := SkipSpaces(line);
    lead := |line| - |cmd|;
    gap := 0;
    if FirstIndex(cmd, SP).None? {
      assert line == Spaces(lead) + cmd + [];
    } else {
      gap := ArgumentGap(line, lead);
    }
  }

  /** The argument case of `ParseComplete`: the run of spaces after the word has `gap + 1` bytes. */
  lemma ArgumentGap(line: seq<Byte>, lead: nat) returns (gap: nat)
    requires lead == |line| - |SkipSpaces(line)|
    requires FirstIndex(SkipSpaces(line), SP).Some?
    ensures line == Render(lead, Parse(line), gap)
  {
    var cmd := SkipSpaces(line);
    var k := FirstIndex(cmd, SP).value;
    var rest := cmd[k..];
    var a := SkipSpaces(rest);
    var run := |rest| - |a|;
    assert rest == Spaces(run) + a;
    assert rest[0] == SP;
    assert run != 0;
    gap := run - 1;
    var word := cmd[..k];
    assert cmd == word + rest;
    RenderArgument(lead, word, a, gap);
    assert Parse(line) == Command(word, Some(a));
    assert line == Spaces(lead) + cmd;
  }

  lemma RenderArgument(lead: nat, word: seq<Byte>, a: seq<Byte>, gap: nat)
    ensures Render(lead, Command(word, Some(a)), gap) == Spaces(lead) + (word + (Spaces(gap + 1) + a))
  {
  }

  const PING: seq<Byte> := Ascii("ping")
  const PONG: seq<Byte> := Ascii("pong")
  const QUIT: seq<Byte> := Ascii("quit")
  const BROADCAST: seq<Byte> := Ascii("broadcast")

  /** Replies written back to the sender. */
  const PongReply: seq<Byte> := Ascii("pong\n")
  const ByeReply: seq<Byte> := Ascii("bye\n")
  const UnknownReply: seq<Byte> := Ascii("unknown Available commands: broadcast <msg>, ping, pong, quit.\n")

  /** The line every client receives when `ident` broadcasts `msg`. */
  function BroadcastText(ident: seq<Byte>, msg: seq<Byte>): seq<Byte> {
    Ascii("broadcast ") + ident + Ascii(" ") + msg + Ascii("\n")
  }

  /** The four command words differ from one another. */
  lemma WordsDistinct()
    ensures PING != PONG && PING != QUIT && PING != BROADCAST
    ensures PONG != QUIT && PONG != BROADCAST && QUIT != BROADCAST
  {
    PingBytes();
    PongBytes();
    QuitBytes();
  }

  /** The first bytes of the command words, enough to tell them apart. */
  lemma PingBytes()
    ensures |PING| == 4 && PING[0] as int == 112 && PING[1] as int == 105
  {
  }

  lemma PongBytes()
    ensures |PONG| == 4 && PONG[0] as int == 112 && PONG[1] as int == 111
  {
  }

  lemma QuitBytes()
    ensures |QUIT| == 4 && QUIT[0] as int == 113
  {
  }

  /** What the server does for one command, in order. */
  datatype Action =
    | Reply(text: seq<Byte>)       // write to the sender
    | ClearPong                    // the sender answered our probe
    | Close                        // unregister the sender
    | Broadcast(text: seq<Byte>)   // write to every client

  /** The dispatch table of `handle_line`, matched case-sensitively on the whole word. */
  function Interpret(c: Command, ident: seq<Byte>): (acts: seq<Action>)
    ensures 1 <= |acts| <= 2
    // only `quit` closes, and closing is the last thing it does
    ensures Close in acts <==> c.name == QUIT
    ensures forall i :: 0 <= i < |acts| - 1 ==> !acts[i].Close?
    // a broadcast needs an argument, possibly empty; it is then the only action
    ensures acts[0].Broadcast? <==> c.name == BROADCAST && c.arg.Some?
    ensures acts[0].Broadcast? ==> acts == [Broadcast(BroadcastText(ident, c.arg.value))]
  {
    WordsDistinct();
    if c.name == PING then [Reply(PongReply)]
    else if c.name == PONG then [ClearPong]
    else if c.name == QUIT then [Reply(ByeReply), Close]
    else if c.name == BROADCAST && c.arg.Some? then [Broadcast(BroadcastText(ident, c.arg.value))]
    else [Reply(UnknownReply)]
  }
}

=== FILE: framer.dfy ===
/**
 The line framer of `handle_data`: each client owns a 4096-byte buffer; every
 `\n`-terminated line is cut out (one trailing `\r` dropped) and the tail moves
 to the front; 4095 bytes without a newline are flushed as one line.

 The scan for `\n` covers only the bytes actually held in the buffer.
 */
module Framer {
  import opened Bytes

  /** Size of `client_data.buf`. */
  const BufSize := 4096
  /** The most bytes the buffer holds: the last slot is kept for a NUL. */
  const MaxFill := BufSize - 1

  /** The byte count handed to `read()`: what is left of the buffer. */
  function Room(buf: seq<Byte>): int {
    MaxFill - |buf|
  }

  /**
   The bytes one `read()` delivers when `avail` bytes wait in the socket: at
   most the room left, so the buffer never exceeds MaxFill.
   */
  function Read(buf: seq<Byte>, avail: seq<Byte>): (got: seq<Byte>)
    requires |buf| <= MaxFill
    ensures got <= avail
    ensures |buf| + |got| <= MaxFill
    ensures |got| == |avail| || |buf| + |got| == MaxFill
  {
    if |avail| <= Room(buf) then avail else avail[..Room(buf)]
  }

  /** What a buffer may hold between two reads: no newline, and not full. */
  predicate Pending(buf: seq<Byte>) {
    LF !in buf && |buf| < MaxFill
  }

  /** The bytes a scan may look at: the buffer never holds more than MaxFill. */
  function Window(s: seq<Byte>): (w: seq<Byte>)
    ensures |w| <= MaxFill && w <= s
    ensures |s| <= MaxFill ==> w == s
  {
    if |s| <= MaxFill then s else s[..MaxFill]
  }

  /** One line dropped its `\r`: `s` without one trailing carriage return. */
  function StripCR(s: seq<Byte>): (r: seq<Byte>)
    ensures s == r || s == r + [CR]
    ensures s == r + [CR] <==> (|s| > 0 && s[|s| - 1] == CR)
  {
    if |s| > 0 && s[|s| - 1] == CR then s[..|s| - 1] else s
  }

  /** Outcome of one pass of the framing loop. */
  datatype Cut =
    | Terminated(line: seq<Byte>, rest: seq<Byte>)  // a `\n` was found
    | Flushed(line: seq<Byte>, rest: seq<Byte>)     // full buffer, no `\n`
    | Incomplete                                    // wait for more bytes

  /** One pass of the loop in `handle_data` over the bytes `s`. */
  function NextLine(s: seq<Byte>): (c: Cut)
    ensures c.Incomplete? <==> Pending(s)
  {
    match FirstIndex(Window(s), LF)
    case Some(k) =>
      TerminatedShape(s, k);
      Terminated(StripCR(s[..k]), s[k + 1..])
    case None =>
      if |s| >= MaxFill then Flushed(s[..MaxFill], s[MaxFill..]) else Incomplete
  }

  /**
   What a pass emits: a terminated line is the bytes before the first `\n`
   with one `\r` dropped, and the rest is everything after that `\n`; a
   flushed line is the whole full window, unchanged. Both leave the rest in
   its original order.
   */
  lemma NextLineShape(s: seq<Byte>)
    ensures var c := NextLine(s);
      && (c.Terminated? ==>
            && LF !in c.line
            && |c.line| < MaxFill
            && |s| - |c.rest| <= MaxFill
            && (|| (s == c.line + [LF] + c.rest && (c.line == [] || c.line[|c.line| - 1] != CR))
                || s == c.line + [CR, LF] + c.rest))
      && (c.Flushed? ==> s == c.line + c.rest && |c.line| == MaxFill && LF !in c.line)
  {
    match FirstIndex(Window(s), LF)
    case Some(k) =>
      TerminatedShape(s, k);
      NextLineFound(s, k);
    case None =>
      if |s| >= MaxFill {
        assert s == s[..MaxFill] + s[MaxFill..];
      }
  }

  /** Cutting at the first newline `k` gives the shape `NextLine` promises. */
  lemma TerminatedShape(s: seq<Byte>, k: nat)
    requires k < |s| && k < MaxFill && s[k] == LF && LF !in s[..k]
    ensures !Pending(s)
    ensures |s| - |s[k + 1..]| <= MaxFill
    ensures var line := StripCR(s[..k]);
      && LF !in line
      && |line| < MaxFill
      && (|| (s == line + [LF] + s[k + 1..] && (line == [] || line[|line| - 1] != CR))
          || s == line + [CR, LF] + s[k + 1..])
  {
    assert s[k] in s;
    var line := StripCR(s[..k]);
    assert s == s[..k] + [LF] + s[k + 1..];
    if line + [CR] == s[..k] {
      assert line == s[..k - 1];
      assert s == line + [CR, LF] + s[k + 1..];
    } else {
      assert line == s[..k];
    }
  }

  /** The lines cut from a byte run, and what stays buffered. */
  datatype Framed = Framed(lines: seq<seq<Byte>>, rest: seq<Byte>)

  /** Every line the framer emits for the bytes `s`, in order. */
  function Lines(s: seq<Byte>): (f: Framed)
    ensures Pending(f.rest)
    ensures |f.rest| <= |s|
    decreases |s|
  {
    var c := NextLine(s);
    if c.Incomplete? then Framed([], s)
    else
      CutShrinks(s);
      var f := Lines(c.rest);
      Framed([c.line] + f.lines, f.rest)
  }

  /** What stays buffered is the tail of the bytes framed: nothing is reordered or invented. */
  lemma {:induction false} LinesKeepsTail(s: seq<Byte>)
    ensures Lines(s).rest == s[|s| - |Lines(s).rest|..]
    decreases |s|
  {
    if !NextLine(s).Incomplete? {
      assert |NextLine(s).rest| < |s| by { CutShrinks(s); }
      LinesKeepsTail(NextLine(s).rest);
      KeepsTailStep(s);
    } else {
      assert s[0..] == s;
    }
  }

  /** One cut: if the rest's leftover is a tail of the rest, the leftover is a tail of the whole. */
  lemma KeepsTailStep(s: seq<Byte>)
    requires !NextLine(s).Incomplete?
    requires var r := NextLine(s).rest; Lines(r).rest == r[|r| - |Lines(r).rest|..]
    ensures Lines(s).rest == s[|s| - |Lines(s).rest|..]
  {
    var c := NextLine(s);
    var u := Lines(c.rest).rest;
    assert |c.rest| < |s| && c.rest == s[|s| - |c.rest|..] by { CutShrinks(s); }
    assert Lines(s).rest == u by { LinesStep(s); }
    TailOfTail(s, c.rest, u);
  }

  lemma TailOfTail(s: seq<Byte>, t: seq<Byte>, u: seq<Byte>)
    requires |t| <= |s| && t == s[|s| - |t|..]
    requires |u| <= |t| && u == t[|t| - |u|..]
    ensures u == s[|s| - |u|..]
  {
  }

  /** Every emitted line is free of `\n` and no longer than the buffer allows. */
  lemma {:induction false} LinesBounded(s: seq<Byte>)
    ensures forall i :: 0 <= i < |Lines(s).lines| ==>
      LF !in Lines(s).lines[i] && |Lines(s).lines[i]| <= MaxFill
    decreases |s|
  {
    var c := NextLine(s);
    if !c.Incomplete? {
      CutShrinks(s);
      LinesBounded(c.rest);
      LinesStep(s);
      BoundedCons(c.line, Lines(c.rest).lines);
    }
  }

  /** A bounded line in front of bounded lines. */
  lemma BoundedCons(line: seq<Byte>, lines: seq<seq<Byte>>)
    requires LF !in line && |line| <= MaxFill
    requires forall i :: 0 <= i < |lines| ==> LF !in lines[i] && |lines[i]| <= MaxFill
    ensures forall i :: 0 <= i < |[line] + lines| ==> LF !in ([line] + lines)[i] && |([line] + lines)[i]| <= MaxFill
  {
    forall i | 1 <= i < |[line] + lines|
      ensures ([line] + lines)[i] == lines[i - 1]
    {
    }
  }

  /** A pass that emits a line leaves a strictly shorter suffix of `s`. */
  lemma CutShrinks(s: seq<Byte>)
    requires !NextLine(s).Incomplete?
    ensures var c := NextLine(s);
      && |c.rest| < |s| && c.rest == s[|s| - |c.rest|..]
      && LF !in c.line && |c.line| <= MaxFill
  {
    var c := NextLine(s);
    NextLineShape(s);
    if c.Terminated? {
      if s == c.line + [LF] + c.rest {
        assert c.rest == s[|c.line| + 1..];
      } else {
        assert c.rest == s[|c.line| + 2..];
      }
    } else {
      assert c.rest == s[|c.line|..];
    }
  }

  /** A pass that finds a `\n` at `k` in the window. */
  lemma NextLineFound(s: seq<Byte>, k: nat)
    requires FirstIndex(Window(s), LF) == Some(k)
    ensures k < |s| && NextLine(s) == Terminated(StripCR(s[..k]), s[k + 1..])
  {
  }

  /** A pass that finds no `\n` in the window of a full buffer. */
  lemma NextLineFull(s: seq<Byte>)
    requires FirstIndex(Window(s), LF) == None && |s| >= MaxFill
    ensures NextLine(s) == Flushed(s[..MaxFill], s[MaxFill..])
  {
  }

  /** Bytes arriving later do not change a pass that already emits a line. */
  lemma NextLineAppend(a: seq<Byte>, b: seq<Byte>)
    requires !NextLine(a).Incomplete?
    ensures NextLine(a + b) == (if NextLine(a).Terminated?
                                then Terminated(NextLine(a).line, NextLine(a).rest + b)
                                else Flushed(NextLine(a).line, NextLine(a).rest + b))
  {
    var w := Window(a);
    match FirstIndex(w, LF)
    case Some(k) =>
      NewlineSurvivesAppend(a, b, k);
      NextLineFound(a, k);
      NextLineFound(a + b, k);
    case None =>
      assert |a| >= MaxFill;
      assert Window(a + b) == w;
      NextLineFull(a);
      NextLineFull(a + b);
      assert (a + b)[..MaxFill] == a[..MaxFill];
      assert (a + b)[MaxFill..] == a[MaxFill..] + b;
  }

  /** A newline inside the scan window of `a` is still the first one in `a + b`. */
  lemma NewlineSurvivesAppend(a: seq<Byte>, b: seq<Byte>, k: nat)
    requires FirstIndex(Window(a), LF) == Some(k)
    ensures FirstIndex(Window(a + b), LF) == Some(k)
    ensures (a + b)[..k] == a[..k] && (a + b)[k + 1..] == a[k + 1..] + b
  {
    var w, w' := Window(a), Window(a + b);
    assert w == a[..|w|] && w' == (a + b)[..|w'|];
    assert w'[..k] == w[..k];
    FirstIndexAt(w', LF, k);
  }

  /**
   Framing is independent of how the bytes are split: the lines of `a + b`
   are those of `a`, then those of what `a` left buffered followed by `b`.
   */
  lemma {:induction false} LinesAppend(a: seq<Byte>, b: seq<Byte>)
    ensures Lines(a + b).lines == Lines(a).lines + Lines(Lines(a).rest + b).lines
    ensures Lines(a + b).rest == Lines(Lines(a).rest + b).rest
    decreases |a|
  {
    var c := NextLine(a);
    if c.Incomplete? {
      assert Lines(a) == Framed([], a);
      assert [] + Lines(a + b).lines == Lines(a + b).lines;
    } else {
      CutShrinks(a);
      NextLineAppend(a, b);
      LinesStep(a);
      LinesStep(a + b);
      LinesAppend(c.rest, b);
      ConsAssoc(c.line, Lines(c.rest).lines, Lines(Lines(c.rest).rest + b).lines);
    }
  }

  /** `Lines` after a pass that emits a line. */
  lemma LinesStep(s: seq<Byte>)
    requires !NextLine(s).Incomplete?
    ensures var c := NextLine(s);
      Lines(s) == Framed([c.line] + Lines(c.rest).lines, Lines(c.rest).rest)
  {
  }

  lemma ConsAssoc(x: seq<Byte>, p: seq<seq<Byte>>, q: seq<seq<Byte>>)
    ensures [x] + (p + q) == ([x] + p) + q
  {
  }

  /** The bytes of a series of reads, end to end. */
  function Flatten(chunks: seq<seq<Byte>>): (s: seq<Byte>)
    ensures chunks == [] ==> s == []
    ensures chunks != [] ==> s == chunks[0] + Flatten(chunks[1..])
  {
    if chunks == [] then [] else chunks[0] + Flatten(chunks[1..])
  }

  /**
   The framer driven read by read, starting from the buffer `buf`: each read's
   bytes are appended, the lines are cut, and the tail waits for the next read.
   */
  function Feed(buf: seq<Byte>, chunks: seq<seq<Byte>>): Framed
    decreases |chunks|
  {
    if chunks == [] then Framed([], buf)
    else
      var now := Lines(buf + chunks[0]);
      var later := Feed(now.rest, chunks[1..]);
      Framed(now.lines + later.lines, later.rest)
  }

  lemma FeedStep(buf: seq<Byte>, chunks: seq<seq<Byte>>)
    requires chunks != []
    ensures var now := Lines(buf + chunks[0]);
      Feed(buf, chunks) == Framed(now.lines + Feed(now.rest, chunks[1..]).lines, Feed(now.rest, chunks[1..]).rest)
  {
  }

  lemma FlattenStep(buf: seq<Byte>, chunks: seq<seq<Byte>>)
    requires chunks != []
    ensures buf + Flatten(chunks) == (buf + chunks[0]) + Flatten(chunks[1..])
  {
  }

  /** However a byte stream is split into reads, the same lines come out. */
  lemma {:induction false} ChunkingInvariance(buf: seq<Byte>, chunks: seq<seq<Byte>>)
    requires Pending(buf)
    ensures Feed(buf, chunks) == Lines(buf + Flatten(chunks))
    decreases |chunks|
  {
    if chunks == [] {
      assert buf + Flatten(chunks) == buf;
      assert NextLine(buf).Incomplete?;
    } else {
      var x, y := buf + chunks[0], Flatten(chunks[1..]);
      var now := Lines(x);
      ChunkingInvariance(now.rest, chunks[1..]);
      FeedStep(buf, chunks);
      LinesAppend(x, y);
      FlattenStep(buf, chunks);
    }
  }

  /** Two splits of the same stream into reads give the same lines and tail. */
  lemma SplitIrrelevant(chunks1: seq<seq<Byte>>, chunks2: seq<seq<Byte>>)
    requires Flatten(chunks1) == Flatten(chunks2)
    ensures Feed([], chunks1) == Feed([], chunks2)
  {
    ChunkingInvariance([], chunks1);
    ChunkingInvariance([], chunks2);
  }

  /**
   A full buffer without a newline comes out whole as one line, `\r` and all,
   and the buffer is empty afterwards.
   */
  lemma ForcedFlush(buf: seq<Byte>)
    requires |buf| == MaxFill && LF !in buf
    ensures Lines(buf) == Framed([buf], [])
  {
    assert buf[..MaxFill] == buf;
    assert NextLine(buf) == Flushed(buf, []);
    assert NextLine([]).Incomplete?;
  }

  /**
   A line of 4094 bytes ended by `\r\n` does not fit: the full buffer is
   flushed with its `\r`, and the `\n` that arrives next ends an empty line.
   */
  lemma CrLfAtBoundary(w: seq<Byte>)
    requires |w| == MaxFill - 1 && LF !in w
    ensures Lines(w + [CR, LF]) == Framed([w + [CR], []], [])
  {
    var s := w + [CR, LF];
    FlushBeforeNewline(w);
    LinesStep(s);
    LoneNewline();
  }

  lemma FlushBeforeNewline(w: seq<Byte>)
    requires |w| == MaxFill - 1 && LF !in w
    ensures NextLine(w + [CR, LF]) == Flushed(w + [CR], [LF])
  {
    var s := w + [CR, LF];
    assert s[..MaxFill] == w + [CR] && s[MaxFill..] == [LF];
    assert Window(s) == w + [CR];
    NextLineFull(s);
  }

  /** A `\n` on its own ends an empty line. */
  lemma LoneNewline()
    ensures Lines([LF]) == Framed([[]], [])
  {
    LinesCons([], []);
    assert NextLine([]).Incomplete?;
    assert [] + [LF] + [] == [LF];
  }

  /**
   A short line without `\n` and not ending in `\r`, followed by `\n`,
   is emitted as it stands and framing resumes after the `\n`.
   */
  lemma LinesCons(line: seq<Byte>, rest: seq<Byte>)
    requires LF !in line && |line| < MaxFill
    requires line == [] || line[|line| - 1] != CR
    ensures var s := line + [LF] + rest;
      Lines(s) == Framed([line] + Lines(rest).lines, Lines(rest).rest)
  {
    var s := line + [LF] + rest;
    var k := |line|;
    assert Window(s)[..k] == line;
    FirstIndexAt(Window(s), LF, k);
    assert s[..k] == line && s[k + 1..] == rest;
    assert NextLine(s) == Terminated(line, rest);
  }
}

=== FILE: keepalive.dfy ===
/**
 The keepalive rule of `process_connections`: after every pass over a
 client, a client idle for `PingAfter` seconds is probed once, and one that
 stays idle until `PingAfter + TimeoutSecs` with the probe unanswered is
 disconnected. The clock reading is a parameter.
 */
module Keepalive {
  import opened Bytes

  const PingAfter := 5
  const TimeoutSecs := 5

  /** The probe sent to an idle client (also the greeting on connect). */
  const PingText: seq<Byte> := Ascii("ping\n")
  /** The farewell sent to a client that never answered. */
  const TimedOutText: seq<Byte> := Ascii("bye Timed out, please respond to ping's.\n")

  /** What one pass does to one client. */
  datatype Verdict = Quiet | Probe | Expire

  /** The decision on `(now - last_seen, awaiting_pong)`. */
  function Decide(idle: int, awaitingPong: bool): (v: Verdict)
    ensures v == Probe <==> PingAfter <= idle && !awaitingPong
    ensures v == Expire <==> PingAfter + TimeoutSecs <= idle && awaitingPong
  {
    if idle >= PingAfter && !awaitingPong then Probe
    else if idle >= PingAfter + TimeoutSecs then Expire
    else Quiet
  }

  /**
   The verdicts of successive passes, at the clock readings `times`, over a
   client that sends nothing: a probe marks it as awaiting a pong, and an
   expiry ends the run because the client is gone.
   */
  function SilentRun(lastSeen: int, awaitingPong: bool, times: seq<int>): (vs: seq<Verdict>)
    ensures |vs| <= |times|
    ensures forall i :: 0 <= i < |vs| - 1 ==> vs[i] != Expire
    ensures |vs| < |times| ==> vs != [] && vs[|vs| - 1] == Expire
    decreases |times|
  {
    if times == [] then []
    else
      var v := Decide(times[0] - lastSeen, awaitingPong);
      if v == Expire then [v]
      else [v] + SilentRun(lastSeen, awaitingPong || v == Probe, times[1..])
  }

  /** A silent client is probed at most once, and not at all while a probe is outstanding. */
  lemma {:induction false} AtMostOneProbe(lastSeen: int, awaitingPong: bool, times: seq<int>)
    ensures multiset(SilentRun(lastSeen, awaitingPong, times))[Probe] <= if awaitingPong then 0 else 1
    decreases |times|
  {
    if times != [] {
      var v := Decide(times[0] - lastSeen, awaitingPong);
      if v != Expire {
        AtMostOneProbe(lastSeen, awaitingPong || v == Probe, times[1..]);
        assert SilentRun(lastSeen, awaitingPong, times) == [v] + SilentRun(lastSeen, awaitingPong || v == Probe, times[1..]);
      }
    }
  }

  /**
   An expiry comes last, only once the deadline has passed, and only after a
   probe that went unanswered (sent in this run or already outstanding).
   */
  lemma {:induction false} ExpiryOnlyAfterDeadline(lastSeen: int, awaitingPong: bool, times: seq<int>, i: nat)
    requires i < |SilentRun(lastSeen, awaitingPong, times)|
    requires SilentRun(lastSeen, awaitingPong, times)[i] == Expire
    ensures i == |SilentRun(lastSeen, awaitingPong, times)| - 1
    ensures times[i] - lastSeen >= PingAfter + TimeoutSecs
    ensures awaitingPong || Probe in SilentRun(lastSeen, awaitingPong, times)[..i]
    decreases |times|
  {
    var vs := SilentRun(lastSeen, awaitingPong, times);
    var v := Decide(times[0] - lastSeen, awaitingPong);
    if i > 0 {
      var a' := awaitingPong || v == Probe;
      var tail := SilentRun(lastSeen, a', times[1..]);
      assert vs == [v] + tail;
      ExpiryOnlyAfterDeadline(lastSeen, a', times[1..], i - 1);
      if !awaitingPong && v != Probe {
        assert Probe in tail[..i - 1];
        assert vs[..i] == [v] + tail[..i - 1];
      } else if !awaitingPong {
        assert vs[..i][0] == Probe;
      }
    }
  }

  /**
   A silent client already awaiting a pong is dropped no later than the pass
   at `times[j]`, the first past the deadline when `j` is chosen least: the
   run ends with an expiry at or before index `j`.
   */
  lemma {:induction false} ExpiryWhileAwaiting(lastSeen: int, times: seq<int>, j: nat)
    requires j < |times| && times[j] - lastSeen >= PingAfter + TimeoutSecs
    ensures Expire in SilentRun(lastSeen, true, times)
    ensures |SilentRun(lastSeen, true, times)| <= j + 1
    decreases |times|
  {
    var v := Decide(times[0] - lastSeen, true);
    if v != Expire {
      ExpiryWhileAwaiting(lastSeen, times[1..], j - 1);
      assert SilentRun(lastSeen, true, times) == [v] + SilentRun(lastSeen, true, times[1..]);
    }
  }

  /**
   A client that never answers is dropped: two passes past the deadline are
   enough (the first may still have to send the probe), and the expiry comes
   at the latest at the second of them.
   */
  lemma {:induction false} SilentClientExpires(lastSeen: int, awaitingPong: bool, times: seq<int>, i: nat, j: nat)
    requires i < j < |times|
    requires times[i] - lastSeen >= PingAfter + TimeoutSecs
    requires times[j] - lastSeen >= PingAfter + TimeoutSecs
    ensures Expire in SilentRun(lastSeen, awaitingPong, times)
    ensures |SilentRun(lastSeen, awaitingPong, times)| <= j + 1
    decreases |times|
  {
    var v := Decide(times[0] - lastSeen, awaitingPong);
    if v != Expire {
      var a' := awaitingPong || v == Probe;
      assert SilentRun(lastSeen, awaitingPong, times) == [v] + SilentRun(lastSeen, a', times[1..]);
      if i > 0 {
        SilentClientExpires(lastSeen, a', times[1..], i - 1, j - 1);
      } else {
        ExpiryWhileAwaiting(lastSeen, times[1..], j - 1);
      }
    }
  }
}

=== FILE: rawbuffer.dfy ===
/**
 The framing loop of `handle_data` as the C code performs it on the fixed
 4096-byte buffer: a `size_t` fill count, `strchr` scanning up to the first
 NUL, the `\r` cut written as a NUL, and the move-to-front copy that does not
 re-terminate the buffer. `Turn` is one turn of that loop, `FixedTurn` the
 same turn with the buffer re-terminated after the move, which frames
 exactly as `Framer.NextLine` does.
 */
module RawBuffer {
  import opened Bytes
  import Framer

  /** `sizeof(c->buf)`. */
  const Size: nat := Framer.BufSize

  /** `size_t` arithmetic wraps modulo 2^64. */
  const SizeT: nat := 0x1_0000_0000_0000_0000

  /** `a - b` on `size_t`: below zero it wraps around to the top of the range. */
  function SizeSub(a: nat, b: nat): (d: nat)
    requires a < SizeT && b < SizeT
    ensures d < SizeT
    ensures d == if a >= b then a - b else a - b + SizeT
  {
    (a - b) % SizeT
  }

  /** A client's `buf` and `buf_len`. */
  datatype Raw = Raw(arr: seq<Byte>, len: nat)

  predicate WellSized(r: Raw) {
    |r.arr| == Size && r.len < SizeT
  }

  /** The record right after `memset(…, 0, …)` in `accept_connection`. */
  function Zeroed(): (r: Raw)
    ensures WellSized(r) && r.len == 0
    ensures forall i :: 0 <= i < Size ==> r.arr[i] == NUL
    ensures Sealed(r) && Content(r) == []
  {
    Raw(seq(Size, _ => NUL), 0)
  }

  /** Outcome of `strchr`: a match, a NUL first, or a scan that leaves the array. */
  datatype Scan = Found(at: nat) | Absent | Overrun

  /** `strchr(arr + i, c)` for a `c` other than NUL. */
  function Strchr(arr: seq<Byte>, c: Byte, i: nat): (r: Scan)
    requires c != NUL
    ensures r.Found? ==> i <= r.at < |arr| && arr[r.at] == c
    ensures r.Found? ==> forall j :: i <= j < r.at ==> arr[j] != c && arr[j] != NUL
    ensures r.Absent? ==> exists j :: i <= j < |arr| && arr[j] == NUL && forall l :: i <= l < j ==> arr[l] != c && arr[l] != NUL
    ensures r.Overrun? ==> forall j :: i <= j < |arr| ==> arr[j] != c && arr[j] != NUL
    decreases |arr| - i
  {
    if i >= |arr| then Overrun
    else if arr[i] == c then Found(i)
    else if arr[i] == NUL then Absent
    else Strchr(arr, c, i + 1)
  }

  /** `strchr` stops at the first byte that is `c` or NUL. */
  lemma {:induction false} StrchrStops(arr: seq<Byte>, c: Byte, i: nat, k: nat)
    requires c != NUL && i <= k < |arr| && (arr[k] == c || arr[k] == NUL)
    requires forall j :: i <= j < k ==> arr[j] != c && arr[j] != NUL
    ensures Strchr(arr, c, i) == if arr[k] == c then Found(k) else Absent
    decreases k - i
  {
    if i < k {
      StrchrStops(arr, c, i + 1, k);
    }
  }

  /** The C string at the start of `arr`: everything before its first NUL. */
  function CString(arr: seq<Byte>): (s: seq<Byte>)
    ensures s <= arr && NUL !in s
    ensures |s| < |arr| ==> arr[|s|] == NUL
  {
    match FirstIndex(arr, NUL)
    case Some(k) => arr[..k]
    case None => arr
  }

  /**
   `read` into `buf + buf_len` followed by `buf_len += num_read` and the
   terminating NUL; `got` is what the socket handed over, at most the room
   `sizeof(buf) - buf_len - 1` leaves.
   */
  function Read(r: Raw, got: seq<Byte>): (r': Raw)
    requires WellSized(r) && r.len + |got| < Size
    ensures WellSized(r') && r'.len == r.len + |got|
    ensures r'.arr[..r.len] == r.arr[..r.len] && r'.arr[r.len..r'.len] == got && r'.arr[r'.len] == NUL
    ensures r'.arr[r'.len + 1..] == r.arr[r'.len + 1..]
  {
    var n := r.len + |got|;
    Raw(seq(Size, i requires 0 <= i < Size =>
          if r.len <= i < n then got[i - r.len] else if i == n then NUL else r.arr[i]), n)
  }

  /**
   A read of the bytes `avail` into a terminated buffer, limited as
   `Framer.Read` limits it, leaves a terminated buffer holding the old
   bytes followed by the bytes read: the `buf + got` the framer works on.
   */
  lemma ReadAppends(r: Raw, avail: seq<Byte>)
    requires Sealed(r) && NulFree(avail)
    ensures var got := Framer.Read(Content(r), avail);
      && r.len + |got| < Size
      && Sealed(Read(r, got)) && Content(Read(r, got)) == Content(r) + got
  {
    var got := Framer.Read(Content(r), avail);
    var r' := Read(r, got);
    forall j | 0 <= j < |got|
      ensures got[j] != NUL
    {
      assert got[j] == avail[j] && avail[j] in avail;
    }
    assert r'.arr[..r'.len] == r'.arr[..r.len] + r'.arr[r.len..r'.len];
  }

  /** What the copy loop at lines 223-224 leaves: the bytes from `off` on moved to the front, up to `len`. */
  function MoveToFront(arr: seq<Byte>, off: nat, len: nat): (b: seq<Byte>)
    requires len <= |arr|
    ensures |b| == |arr|
    ensures forall i :: 0 <= i < |arr| && i + off < len ==> b[i] == arr[off + i]
    ensures forall i :: 0 <= i < |arr| && len <= i + off ==> b[i] == arr[i]
  {
    seq(|arr|, i requires 0 <= i < |arr| => if i + off < len then arr[off + i] else arr[i])
  }

  /** The copy loop at lines 223-224 as written, from index `i` on: `arr[i] = arr[off + i]` while `i + off < len`. */
  function CopyFrom(arr: seq<Byte>, off: nat, len: nat, i: nat): (b: seq<Byte>)
    requires len <= |arr|
    ensures |b| == |arr|
    decreases len - i
  {
    if i + off < len then CopyFrom(arr[i := arr[i + off]], off, len, i + 1) else arr
  }

  /**
   The in-place loop, copying one byte at a time, never reads a slot it has
   already overwritten when `off >= 1`, so it leaves exactly `MoveToFront`.
   */
  lemma CopyLoopMoves(arr: seq<Byte>, off: nat, len: nat)
    requires len <= |arr| && off >= 1
    ensures CopyFrom(arr, off, len, 0) == MoveToFront(arr, off, len)
  {
    CopySteps(arr, arr, off, len, 0);
  }

  /** Loop invariant of the copy: slots below `i` are moved, slots from `i` on are untouched. */
  lemma {:induction false} CopySteps(a0: seq<Byte>, arr: seq<Byte>, off: nat, len: nat, i: nat)
    requires len <= |a0| == |arr| && off >= 1 && i <= |arr|
    requires i > 0 ==> i - 1 + off < len
    requires forall j :: 0 <= j < i ==> arr[j] == a0[off + j]
    requires forall j :: i <= j < |arr| ==> arr[j] == a0[j]
    ensures CopyFrom(arr, off, len, i) == MoveToFront(a0, off, len)
    decreases len - i
  {
    var m := MoveToFront(a0, off, len);
    if i + off < len {
      var arr' := arr[i := arr[i + off]];
      assert arr[i + off] == a0[off + i];
      CopySteps(a0, arr', off, len, i + 1);
    } else {
      forall j | 0 <= j < |arr|
        ensures arr[j] == m[j]
      {
        if j < i {
          assert j + off < len;
        }
      }
    }
  }

  /** One turn of the loop: a line handed to `handle_line`, a wait for more input, or undefined behaviour. */
  datatype Outcome = Emitted(line: seq<Byte>, next: Raw) | Waits | OutOfBounds

  /** Where the NUL goes that ends the line at `k`: on the `\r` before it, if any, else on the `\n`. */
  function LineEnd(arr: seq<Byte>, k: nat): (e: nat)
    requires k < |arr|
    ensures e == k || (e == k - 1 && arr[e] == CR)
  {
    if k > 0 && arr[k - 1] == CR then k - 1 else k
  }

  /** One turn of the `for (;;)` loop, exactly as written. */
  function Turn(r: Raw): (p: Outcome)
    requires WellSized(r)
    ensures p.Emitted? ==> WellSized(p.next) && NUL !in p.line
    ensures p.Waits? <==> Strchr(r.arr, LF, 0).Absent? && r.len < Size - 1
  {
    match Strchr(r.arr, LF, 0)
    case Overrun => OutOfBounds
    case Absent =>
      if r.len < Size - 1 then Waits
      else if r.len >= Size then OutOfBounds
      else
        var a := r.arr[r.len := NUL];
        Emitted(CString(a), Raw(a[0 := NUL], 0))
    case Found(k) =>
      var a := r.arr[LineEnd(r.arr, k) := NUL];
      if r.len > Size then OutOfBounds
      else Emitted(CString(a), Raw(CopyFrom(a, k + 1, r.len, 0), SizeSub(r.len, k + 1)))
  }

  /** The same turn with `buf[buf_len] = '\0'` after the move. */
  function FixedTurn(r: Raw): (p: Outcome)
    requires WellSized(r)
    ensures p.Emitted? ==> WellSized(p.next)
  {
    match Turn(r)
    case Emitted(line, next) =>
      if next.len < Size then Emitted(line, next.(arr := next.arr[next.len := NUL])) else OutOfBounds
    case other => other
  }

  /** What a buffer holds between turns when nothing stale can be read: its bytes, then a NUL. */
  predicate Sealed(r: Raw) {
    && WellSized(r) && r.len < Size
    && r.arr[r.len] == NUL && NUL !in r.arr[..r.len]
  }

  /** The bytes a terminated buffer holds. */
  function Content(r: Raw): (s: seq<Byte>)
    requires Sealed(r)
    ensures |s| == r.len && NulFree(s)
  {
    r.arr[..r.len]
  }

  /** On a terminated buffer, `strchr` for `\n` is `FirstIndex` on the held bytes. */
  lemma ScanContent(r: Raw)
    requires Sealed(r)
    ensures match FirstIndex(Content(r), LF)
      case Some(k) => Strchr(r.arr, LF, 0) == Found(k)
      case None => Strchr(r.arr, LF, 0) == Absent
  {
    var s := Content(r);
    match FirstIndex(s, LF)
    case Some(k) =>
      forall j | 0 <= j < k
        ensures r.arr[j] != LF && r.arr[j] != NUL
      {
        assert r.arr[j] == s[j] && s[j] in s[..k] && s[j] in s;
      }
      StrchrStops(r.arr, LF, 0, k);
    case None =>
      forall j | 0 <= j < r.len
        ensures r.arr[j] != LF && r.arr[j] != NUL
      {
        assert r.arr[j] == s[j] && s[j] in s;
      }
      StrchrStops(r.arr, LF, 0, r.len);
  }

  /** Cutting a NUL-free prefix with a NUL yields that prefix as a C string. */
  lemma CutAt(arr: seq<Byte>, e: nat)
    requires e < |arr| && NUL !in arr[..e]
    ensures CString(arr[e := NUL]) == arr[..e]
  {
    var a := arr[e := NUL];
    assert a[..e] == arr[..e];
    FirstIndexAt(a, NUL, e);
  }

  /**
   The repaired loop frames like the model: on a terminated buffer a turn
   emits the line `Framer.NextLine` cuts from the held bytes, leaves exactly
   its rest, terminated, or waits when `NextLine` does.
   */
  lemma FixedTurnFrames(r: Raw)
    requires Sealed(r)
    ensures match Framer.NextLine(Content(r))
      case Incomplete => FixedTurn(r) == Waits
      case Terminated(line, rest) =>
        FixedTurn(r).Emitted? && FixedTurn(r).line == line
        && Sealed(FixedTurn(r).next) && Content(FixedTurn(r).next) == rest
      case Flushed(line, rest) =>
        FixedTurn(r).Emitted? && FixedTurn(r).line == line
        && Sealed(FixedTurn(r).next) && Content(FixedTurn(r).next) == rest
  {
    var s := Content(r);
    ScanContent(r);
    assert Framer.Window(s) == s;
    match FirstIndex(s, LF)
    case None =>
      if r.len >= Size - 1 {
        FlushFrames(r);
      }
    case Some(k) =>
      TerminatedLine(r, k);
      TerminatedRest(r, k);
  }

  /** The forced flush of a full buffer without `\n`, repaired or not. */
  lemma FlushFrames(r: Raw)
    requires Sealed(r) && r.len == Size - 1 && FirstIndex(Content(r), LF).None?
    requires Strchr(r.arr, LF, 0) == Absent
    ensures var s := Content(r);
      FixedTurn(r).Emitted? && FixedTurn(r).line == s
      && Sealed(FixedTurn(r).next) && Content(FixedTurn(r).next) == []
      && Framer.NextLine(s) == Framer.Flushed(s, [])
  {
    var s := Content(r);
    CutAt(r.arr, r.len);
    assert s[..Framer.MaxFill] == s;
    var a := r.arr[r.len := NUL];
    assert a == r.arr;
  }

  /** A turn that finds a `\n` at `k` in a buffer whose count is in range. */
  lemma TurnFound(r: Raw, k: nat)
    requires WellSized(r) && r.len <= Size && Strchr(r.arr, LF, 0) == Found(k)
    ensures var a := r.arr[LineEnd(r.arr, k) := NUL];
      var n := r.len - (k + 1);
      Turn(r) == Emitted(CString(a), Raw(MoveToFront(a, k + 1, r.len), if n < 0 then n + SizeT else n))
  {
    TurnCopies(r, k);
    CopyLoopMoves(r.arr[LineEnd(r.arr, k) := NUL], k + 1, r.len);
  }

  /** The same turn, with the copy loop as written. */
  lemma TurnCopies(r: Raw, k: nat)
    requires WellSized(r) && r.len <= Size && Strchr(r.arr, LF, 0) == Found(k)
    ensures var a := r.arr[LineEnd(r.arr, k) := NUL];
      var n := r.len - (k + 1);
      Turn(r) == Emitted(CString(a), Raw(CopyFrom(a, k + 1, r.len, 0), if n < 0 then n + SizeT else n))
  {
  }

  lemma NotInPrefix(s: seq<Byte>, e: nat, b: Byte)
    requires e <= |s| && b !in s
    ensures b !in s[..e]
  {
    forall j | 0 <= j < e
      ensures s[..e][j] != b
    {
      assert s[..e][j] == s[j] && s[j] in s;
    }
  }

  /** A `\n` at `k`: the line handed on is the bytes before it without a trailing `\r`. */
  lemma TerminatedLine(r: Raw, k: nat)
    requires Sealed(r) && FirstIndex(Content(r), LF) == Some(k)
    requires Strchr(r.arr, LF, 0) == Found(k)
    ensures FixedTurn(r).Emitted? && FixedTurn(r).line == Framer.StripCR(Content(r)[..k])
  {
    var s := Content(r);
    var e := LineEnd(r.arr, k);
    FixedFound(r, k);
    assert r.arr[..e] == s[..e];
    NotInPrefix(s, e, NUL);
    CutAt(r.arr, e);
    StripAtEnd(r, k);
  }

  /** The cut the C code makes at `LineEnd` is the model's `StripCR` of the bytes before the `\n`. */
  lemma StripAtEnd(r: Raw, k: nat)
    requires Sealed(r) && k < r.len
    ensures Framer.StripCR(Content(r)[..k]) == Content(r)[..LineEnd(r.arr, k)]
  {
    var s := Content(r);
    if k > 0 {
      assert s[..k][k - 1] == r.arr[k - 1];
      assert s[..k][..k - 1] == s[..k - 1];
    }
  }

  /** The copy at lines 223-224 brings the bytes after the `\n` at `k` to the front. */
  lemma MovedRest(arr: seq<Byte>, e: nat, k: nat, len: nat)
    requires e <= k < len <= |arr|
    ensures var n := len - (k + 1);
      MoveToFront(arr[e := NUL], k + 1, len)[n := NUL][..n] == arr[k + 1..len]
  {
    var n := len - (k + 1);
    var a := arr[e := NUL];
    var b := MoveToFront(a, k + 1, len);
    var c := b[n := NUL];
    forall j | 0 <= j < n
      ensures c[j] == arr[k + 1 + j]
    {
      assert b[j] == a[k + 1 + j] == arr[k + 1 + j];
    }
  }

  /** A `\n` at `k`: what follows it is moved to the front, and the repaired turn seals it. */
  lemma TerminatedRest(r: Raw, k: nat)
    requires Sealed(r) && FirstIndex(Content(r), LF) == Some(k)
    requires Strchr(r.arr, LF, 0) == Found(k)
    ensures FixedTurn(r).Emitted? && Sealed(FixedTurn(r).next) && Content(FixedTurn(r).next) == Content(r)[k + 1..]
  {
    var e := LineEnd(r.arr, k);
    var n := r.len - (k + 1);
    var b' := MoveToFront(r.arr[e := NUL], k + 1, r.len)[n := NUL];
    FixedFound(r, k);
    MovedRest(r.arr, e, k, r.len);
    RestNulFree(r, k);
    SealedAt(b', n);
  }

  /** The bytes after the `\n` at `k` are a NUL-free suffix of the held bytes. */
  lemma RestNulFree(r: Raw, k: nat)
    requires Sealed(r) && k < r.len
    ensures r.arr[k + 1..r.len] == Content(r)[k + 1..] && NUL !in Content(r)[k + 1..]
  {
    var s := Content(r);
    var t := s[k + 1..];
    forall j | 0 <= j < |t|
      ensures t[j] != NUL
    {
      assert t[j] == s[k + 1 + j] && s[k + 1 + j] in s;
    }
  }

  /** The repaired turn on a `\n` at `k`: the moved bytes, re-terminated, with the count `len - (k + 1)`. */
  lemma FixedFound(r: Raw, k: nat)
    requires Sealed(r) && Strchr(r.arr, LF, 0) == Found(k)
    ensures var a := r.arr[LineEnd(r.arr, k) := NUL];
      var n := r.len - (k + 1);
      n >= 0 && FixedTurn(r) == Emitted(CString(a), Raw(MoveToFront(a, k + 1, r.len)[n := NUL], n))
  {
    TurnFound(r, k);
  }

  /** An array that holds NUL-free bytes and a NUL after them is a terminated buffer. */
  lemma SealedAt(arr: seq<Byte>, n: nat)
    requires |arr| == Size && n < Size && arr[n] == NUL && NUL !in arr[..n]
    ensures Sealed(Raw(arr, n)) && Content(Raw(arr, n)) == arr[..n]
  {
  }

  /** The input `a\r\nbc` as it arrives: the line `a` ended by `\r\n`, then `bc` with no `\n` yet. */
  const StaleExample: seq<Byte> := Ascii("a") + [CR, LF] + Ascii("bc")

  lemma StaleExampleBytes()
    ensures |StaleExample| == 5 && StaleExample[0] == 97 && StaleExample[1] == CR && StaleExample[2] == LF && StaleExample[3] == 98 && StaleExample[4] == 99
  {
  }

  /** `a\r\nbc` read into a fresh record. */
  lemma ReadStaleExample()
    ensures var r := Read(Zeroed(), StaleExample);
      && r.len == 5 && r.arr[0] == 97 && r.arr[1] == CR && r.arr[2] == LF
      && r.arr[3] == 98 && r.arr[4] == 99 && r.arr[5] == NUL
  {
    var r := Read(Zeroed(), StaleExample);
    StaleExampleBytes();
    assert r.arr[0..5] == StaleExample;
    forall i | 0 <= i < 5
      ensures r.arr[i] == StaleExample[i]
    {
      assert r.arr[0..5][i] == r.arr[i];
    }
  }

  /** The single byte 97 is the text `a`. */
  lemma AsciiA(s: seq<Byte>)
    requires |s| == 1 && s[0] == 97
    ensures s == Ascii("a")
  {
  }

  /** The bytes 98, 99 are the text `bc`. */
  lemma AsciiBc(s: seq<Byte>)
    requires |s| == 2 && s[0] == 98 && s[1] == 99
    ensures s == Ascii("bc")
  {
  }

  /** First turn: `a` goes to `handle_line`, `bc` moves to the front, the old `\n` stays at index 2. */
  lemma FirstTurn(r: Raw)
    requires WellSized(r) && r.len == 5
    requires r.arr[0] == 97 && r.arr[1] == CR && r.arr[2] == LF && r.arr[3] == 98 && r.arr[4] == 99 && r.arr[5] == NUL
    ensures Turn(r).Emitted? && Turn(r).line == Ascii("a")
    ensures var r' := Turn(r).next; r'.len == 2 && r'.arr[0] == 98 && r'.arr[1] == 99 && r'.arr[2] == LF
  {
    StrchrStops(r.arr, LF, 0, 2);
    TurnFound(r, 2);
    CutAt(r.arr, 1);
    AsciiA(r.arr[..1]);
  }

  /** Second turn: the stale `\n` ends `bc` early and `buf_len` drops below zero. */
  lemma SecondTurn(r: Raw)
    requires WellSized(r) && r.len == 2 && r.arr[0] == 98 && r.arr[1] == 99 && r.arr[2] == LF
    ensures Turn(r).Emitted? && Turn(r).line == Ascii("bc")
    ensures var r' := Turn(r).next;
      r'.len == SizeT - 1 && r'.arr[0] == 98 && r'.arr[1] == 99 && r'.arr[2] == NUL
  {
    StrchrStops(r.arr, LF, 0, 2);
    TurnFound(r, 2);
    CutAt(r.arr, 2);
    AsciiBc(r.arr[..2]);
  }

  /** A turn with no `\n` before the first NUL and a `buf_len` past the end sends the NUL out of bounds. */
  lemma PastTheEnd(r: Raw, k: nat)
    requires WellSized(r) && r.len >= Size && k < Size && r.arr[k] == NUL
    requires forall j :: 0 <= j < k ==> r.arr[j] != LF && r.arr[j] != NUL
    ensures Turn(r) == OutOfBounds
  {
    StrchrStops(r.arr, LF, 0, k);
  }

  /**
   The loop as written on `a\r\nbc` read into a fresh record: it hands `a`
   to `handle_line`, then hands over `bc` although no `\n` followed it,
   leaving `buf_len` at 2 - 3 wrapped to 2^64 - 1, and the next turn writes
   the NUL at `buf[2^64 - 1]`, far outside the buffer.
   */
  lemma StaleNewline()
    ensures var r0 := Read(Zeroed(), StaleExample);
      && Turn(r0).Emitted? && Turn(r0).line == Ascii("a")
      && Turn(Turn(r0).next).Emitted? && Turn(Turn(r0).next).line == Ascii("bc")
      && Turn(Turn(r0).next).next.len == SizeT - 1
      && Turn(Turn(Turn(r0).next).next) == OutOfBounds
  {
    var r0 := Read(Zeroed(), StaleExample);
    ReadStaleExample();
    FirstTurn(r0);
    SecondTurn(Turn(r0).next);
    PastTheEnd(Turn(Turn(r0).next).next, 2);
  }

  /** A line ended by `\r\n` followed by bytes with no `\n` yet: the model emits the line and keeps the bytes. */
  lemma CrlfKeepsRest(w: seq<Byte>, rest: seq<Byte>)
    requires LF !in w && |w| + 1 < Framer.MaxFill && Framer.Pending(rest)
    ensures Framer.Lines(w + [CR, LF] + rest) == Framer.Framed([w], rest)
  {
    var s := w + [CR, LF] + rest;
    var k := |w| + 1;
    assert Framer.Window(s)[..k] == w + [CR];
    FirstIndexAt(Framer.Window(s), LF, k);
    assert s[..k] == w + [CR] && s[k + 1..] == rest;
    assert Framer.NextLine(s) == Framer.Terminated(w, rest);
  }

  /** The model keeps `bc` until its `\n` arrives. */
  lemma CrlfWaits()
    ensures Framer.Lines(StaleExample) == Framer.Framed([Ascii("a")], Ascii("bc"))
  {
    CrlfKeepsRest(Ascii("a"), Ascii("bc"));
  }

  /** The input `x\n\nR`: the line `x`, an empty line, then `R` with no `\n` yet; no `\r` anywhere. */
  const BareExample: seq<Byte> := Ascii("x") + [LF, LF] + Ascii("R")

  lemma BareExampleBytes()
    ensures |BareExample| == 4 && BareExample[0] == 120 && BareExample[1] == LF && BareExample[2] == LF && BareExample[3] == 82
  {
  }

  /** A read into a fresh record puts the bytes at the front with a NUL after them. */
  lemma ReadFresh(got: seq<Byte>)
    requires |got| < Size
    ensures var r := Read(Zeroed(), got);
      r.len == |got| && r.arr[|got|] == NUL && forall i :: 0 <= i < |got| ==> r.arr[i] == got[i]
  {
    var r := Read(Zeroed(), got);
    forall i | 0 <= i < |got|
      ensures r.arr[i] == got[i]
    {
      assert r.arr[0..|got|][i] == r.arr[i];
    }
  }

  /** The single byte 120 is the text `x`. */
  lemma AsciiX(s: seq<Byte>)
    requires |s| == 1 && s[0] == 120
    ensures s == Ascii("x")
  {
  }

  /** The bytes 82, 82 are the text `RR`. */
  lemma AsciiRR(s: seq<Byte>)
    requires |s| == 2 && s[0] == 82 && s[1] == 82
    ensures s == Ascii("RR")
  {
  }

  /** First turn on `x\n\nR`: `x` goes out, `\nR` moves to the front over the old `\n\n`. */
  lemma BareFirst(r: Raw)
    requires WellSized(r) && r.len == 4
    requires r.arr[0] == 120 && r.arr[1] == LF && r.arr[2] == LF && r.arr[3] == 82 && r.arr[4] == NUL
    ensures Turn(r).Emitted? && Turn(r).line == Ascii("x")
    ensures var r' := Turn(r).next; r'.len == 2 && r'.arr[0] == LF && r'.arr[1] == 82 && r'.arr[2] == LF
  {
    StrchrStops(r.arr, LF, 0, 1);
    TurnFound(r, 1);
    CutAt(r.arr, 1);
    AsciiX(r.arr[..1]);
  }

  /** Second turn: the empty line goes out, `R` moves to the front, and the stale `\n` at index 2 stays. */
  lemma BareSecond(r: Raw)
    requires WellSized(r) && r.len == 2 && r.arr[0] == LF && r.arr[1] == 82 && r.arr[2] == LF
    ensures Turn(r).Emitted? && Turn(r).line == []
    ensures var r' := Turn(r).next; r'.len == 1 && r'.arr[0] == 82 && r'.arr[1] == 82 && r'.arr[2] == LF
  {
    StrchrStops(r.arr, LF, 0, 0);
    TurnFound(r, 0);
    CutAt(r.arr, 0);
  }

  /** Third turn: the stale `\n` ends the line `RR`, which was never sent, and `buf_len` drops below zero. */
  lemma BareThird(r: Raw)
    requires WellSized(r) && r.len == 1 && r.arr[0] == 82 && r.arr[1] == 82 && r.arr[2] == LF
    ensures Turn(r).Emitted? && Turn(r).line == Ascii("RR")
    ensures var r' := Turn(r).next;
      r'.len == SizeT - 2 && r'.arr[0] == 82 && r'.arr[1] == 82 && r'.arr[2] == NUL
  {
    StrchrStops(r.arr, LF, 0, 2);
    TurnFound(r, 2);
    CutAt(r.arr, 2);
    AsciiRR(r.arr[..2]);
  }

  /**
   The loop as written on `x\n\nR` read into a fresh record, with no `\r`
   involved: it hands on `x` and the empty line, then the line `RR`, made
   of the pending `R` and a stale copy of it, ended by a stale `\n`;
   `buf_len` becomes 1 - 3 wrapped to 2^64 - 2, and the next turn writes
   out of bounds.
   */
  lemma StaleNewlineBare()
    ensures var r0 := Read(Zeroed(), BareExample);
      && Turn(r0).Emitted? && Turn(r0).line == Ascii("x")
      && (var r1 := Turn(r0).next;
          && Turn(r1).Emitted? && Turn(r1).line == []
          && (var r2 := Turn(r1).next;
              && Turn(r2).Emitted? && Turn(r2).line == Ascii("RR")
              && Turn(r2).next.len == SizeT - 2
              && Turn(Turn(r2).next) == OutOfBounds))
  {
    var r0 := Read(Zeroed(), BareExample);
    BareExampleBytes();
    ReadFresh(BareExample);
    BareFirst(r0);
    var r1 := Turn(r0).next;
    BareSecond(r1);
    var r2 := Turn(r1).next;
    BareThird(r2);
    PastTheEnd(Turn(r2).next, 2);
  }

  /** The model frames `x\n\nR` as `x` and the empty line, and keeps `R` until its `\n` arrives. */
  lemma BareWaits()
    ensures Framer.Lines(BareExample) == Framer.Framed([Ascii("x"), []], Ascii("R"))
  {
    BareExampleSplit();
    LineBlankPending([120], [82]);
  }

  /** `x\n\nR` is the line `x`, its `\n`, an empty line's `\n` and the tail `R`. */
  lemma BareExampleSplit()
    ensures Ascii("x") == [120] && Ascii("R") == [82]
    ensures BareExample == [120] + [LF] + ([] + [LF] + [82])
  {
    BareExampleBytes();
  }

  /** A short line, an empty line and a pending tail: two lines out, the tail kept. */
  lemma LineBlankPending(line: seq<Byte>, rest: seq<Byte>)
    requires LF !in line && |line| < Framer.MaxFill && line != [] && line[|line| - 1] != CR
    requires Framer.Pending(rest)
    ensures Framer.Lines(line + [LF] + ([] + [LF] + rest)) == Framer.Framed([line, []], rest)
  {
    var blank := [] + [LF] + rest;
    BlankPending(rest);
    Framer.LinesCons(line, blank);
    ConsBlank(line, Framer.Lines(blank).lines);
  }

  lemma ConsBlank(line: seq<Byte>, lines: seq<seq<Byte>>)
    requires lines == [[]]
    ensures [line] + lines == [line, []]
  {
  }

  /** An empty line before a pending tail: one empty line out, the tail kept. */
  lemma BlankPending(rest: seq<Byte>)
    requires Framer.Pending(rest)
    ensures Framer.Lines([] + [LF] + rest) == Framer.Framed([[]], rest)
  {
    assert Framer.Lines(rest) == Framer.Framed([], rest);
    Framer.LinesCons([], rest);
  }
}

=== FILE: scenarios.dfy ===
/** Concrete exchanges on the wire, worked through the model. */
module Scenarios {
  import opened Bytes
  import Framer
  import opened Commands
  import opened Table
  import opened Session

  /** The first fd of a non-empty sequence is one of its members. */
  lemma FirstIsMember(b: seq<int>)
    ensures |b| > 0 ==> b[0] in b
  {
  }

  /** Two increasing fd sequences with the same members are the same sequence. */
  lemma {:induction false} IncreasingUnique(a: seq<int>, b: seq<int>)
    requires Increasing(a) && Increasing(b)
    requires forall x :: x in a <==> x in b
    ensures a == b
    decreases |a|
  {
    if a == [] {
      FirstIsMember(b);
    } else {
      assert a[0] in a && a[0] in b;
      assert b[0] in b && b[0] in a;
      assert a[0] == b[0];
      forall x
        ensures x in a[1..] <==> x in b[1..]
      {
        if x in a[1..] {
          assert x in b && x != b[0];
        }
        if x in b[1..] {
          assert x in a && x != a[0];
        }
      }
      IncreasingUnique(a[1..], b[1..]);
    }
  }

  /** The literal bytes the scenarios type: no `\n`, no space, no trailing `\r`, and short. */
  predicate Plain(w: seq<Byte>) {
    && w != [] && |w| < 100
    && NUL !in w && LF !in w && SP !in w && w[|w| - 1] != CR
  }

  predicate Lowercase(w: string) {
    forall i :: 0 <= i < |w| ==> 'a' <= w[i] <= 'z'
  }

  /** A lower-case word encodes to plain bytes. */
  lemma LowercasePlain(w: string)
    requires Lowercase(w) && 0 < |w| < 100
    ensures Plain(Ascii(w))
  {
  }

  lemma WordsPlain()
    ensures Plain(PING) && Plain(PONG) && Plain(QUIT) && Plain(BROADCAST)
  {
    LowercasePlain("ping");
    LowercasePlain("pong");
    LowercasePlain("quit");
    LowercasePlain("broadcast");
  }

  /** Two plain words joined by one space make a line the framer passes through whole. */
  lemma Joined(w: seq<Byte>, a: seq<Byte>)
    requires Plain(w) && Plain(a)
    ensures var line := w + [SP] + a;
      && line != [] && |line| < Framer.MaxFill && line[|line| - 1] != CR
      && LF !in line && NUL !in line + [LF]
  {
    var line := w + [SP] + a;
    assert line[|line| - 1] == a[|a| - 1];
    assert forall b :: b in line <==> b in w || b == SP || b in a;
  }

  /** Ending a NUL-free line with `\n` keeps it NUL-free. */
  lemma NewlineKeepsNulFree(w: seq<Byte>)
    requires NUL !in w
    ensures NUL !in w + [LF]
  {
  }

  lemma EmptyFrames()
    ensures Framer.Lines([]) == Framer.Framed([], [])
  {
    assert Framer.NextLine([]).Incomplete?;
  }

  /** A single line typed with its `\n` frames to exactly that line. */
  lemma OneLine(line: seq<Byte>)
    requires LF !in line && |line| < Framer.MaxFill && line != [] && line[|line| - 1] != CR
    ensures Framer.Lines(line + [LF]) == Framer.Framed([line], [])
  {
    EmptyFrames();
    Framer.LinesCons(line, []);
    assert line + [LF] + [] == line + [LF];
  }

  /** A line that is exactly the word `w`, no spaces. */
  lemma BareWord(w: seq<Byte>)
    requires w != [] && SP !in w
    ensures Parse(w) == Command(w, None)
  {
    ParseRender(0, Command(w, None), 0);
    assert Render(0, Command(w, None), 0) == w;
  }

  /** A word, one space, and a second word. */
  lemma WordAndArgument(w: seq<Byte>, a: seq<Byte>)
    requires w != [] && SP !in w && a != [] && a[0] != SP
    ensures Parse(w + [SP] + a) == Command(w, Some(a))
  {
    var c := Command(w, Some(a));
    assert Canonical(c);
    var sp := Spaces(1);
    assert sp == [SP];
    assert Spaces(0) + w + (sp + a) == w + [SP] + a;
    ParseRender(0, c, 0);
  }

  /**
   A read into an empty buffer dispatches exactly the lines the framer cuts
   from the bytes read, and keeps the unfinished tail buffered.
   */
  lemma FreshRead(s: Server, fd: int, avail: seq<Byte>, now: int, broken: set<int>)
    requires Valid(s) && fd in s.clients && s.clients[fd].buf == []
    requires NulFree(avail) && avail != []
    ensures var f := Framer.Lines(Framer.Read([], avail));
      HandleData(s, fd, avail, now, broken) == DispatchLines(Refresh(s, fd, f.rest, now), fd, f.lines, broken)
  {
    assert [] + Framer.Read([], avail) == Framer.Read([], avail);
  }

  /** A read of whole lines into an empty buffer leaves nothing buffered. */
  lemma WholeLinesRead(s: Server, fd: int, avail: seq<Byte>, lines: seq<seq<Byte>>, now: int, broken: set<int>)
    requires Valid(s) && fd in s.clients && s.clients[fd].buf == []
    requires NulFree(avail) && |avail| <= Framer.MaxFill && avail != []
    requires Framer.Lines(avail) == Framer.Framed(lines, [])
    ensures HandleData(s, fd, avail, now, broken) == DispatchLines(Refresh(s, fd, [], now), fd, lines, broken)
  {
    FreshRead(s, fd, avail, now, broken);
    assert Framer.Read([], avail) == avail;
  }

  /** Whatever a line leads to, it is the only line of a one-line read. */
  lemma OneLineRead(s: Server, fd: int, line: seq<Byte>, now: int, broken: set<int>)
    requires Valid(s) && fd in s.clients && s.clients[fd].buf == []
    requires LF !in line && |line| < Framer.MaxFill && line != [] && line[|line| - 1] != CR
    requires NulFree(line + [LF])
    ensures HandleData(s, fd, line + [LF], now, broken) == HandleLine(Refresh(s, fd, [], now), fd, line, broken)
  {
    OneLine(line);
    WholeLinesRead(s, fd, line + [LF], [line], now, broken);
    var s1 := Refresh(s, fd, [], now);
    var s2 := HandleLine(s1, fd, line, broken);
    assert DispatchLines(s1, fd, [line], broken) == DispatchLines(s2, fd, [], broken);
  }

  /** Two plain words, each with its `\n`, frame to exactly those two lines. */
  lemma TwoLines(p: seq<Byte>, q: seq<Byte>)
    requires Plain(p) && Plain(q)
    ensures Framer.Lines(p + [LF] + (q + [LF])) == Framer.Framed([p, q], [])
  {
    PlainLine(p);
    PlainLine(q);
    OneLine(q);
    Framer.LinesCons(p, q + [LF]);
  }

  lemma PlainLine(w: seq<Byte>)
    requires Plain(w)
    ensures LF !in w && |w| < Framer.MaxFill && w != [] && w[|w| - 1] != CR
  {
  }

  lemma TwoLinesNulFree(p: seq<Byte>, q: seq<Byte>)
    requires NUL !in p && NUL !in q
    ensures NulFree(p + [LF] + (q + [LF]))
  {
  }

  /** `ping` then `pong` from a client with no probe outstanding: one `pong` reply, nothing else. */
  lemma PingPongDispatch(s: Server, fd: int, p: seq<Byte>, q: seq<Byte>)
    requires Valid(s) && fd in s.clients && !s.clients[fd].awaitingPong
    requires Parse(p).name == PING && Parse(q).name == PONG
    ensures DispatchLines(s, fd, [p, q], {}) == s.(log := s.log + [Sent(fd, PongReply)])
  {
    PingIsAnswered(s, fd, p, {});
    var s2 := s.(log := s.log + [Sent(fd, PongReply)]);
    PongClearsProbe(s2, fd, q, {});
    assert s2.clients[fd := s2.clients[fd].(awaitingPong := false)] == s2.clients;
    assert DispatchLines(s, fd, [p, q], {}) == DispatchLines(s2, fd, [q], {});
    assert DispatchLines(s2, fd, [q], {}) == DispatchLines(s2, fd, [], {});
  }

  /** The bytes of `ping\npong\n`. */
  const PingPong: seq<Byte> := PING + [LF] + (PONG + [LF])

  /**
   One read delivering `ping\npong\n` yields two commands in order: one
   `pong` reply, and for `pong` no reply at all; the client stays, marked
   alive at `now`.
   */
  lemma MultiLineRead(s: Server, fd: int, now: int)
    requires Valid(s) && fd in s.clients && s.clients[fd].buf == []
    ensures NulFree(PingPong)
    ensures HandleData(s, fd, PingPong, now, {}) == Refresh(s, fd, [], now).(log := s.log + [Sent(fd, PongReply)])
  {
    WordsPlain();
    TwoLinesNulFree(PING, PONG);
    TwoLines(PING, PONG);
    WholeLinesRead(s, fd, PingPong, [PING, PONG], now, {});
    BareWord(PING);
    BareWord(PONG);
    PingPongDispatch(Refresh(s, fd, [], now), fd, PING, PONG);
  }

  /** A `ping` line followed by the start of the next line, in one read. */
  lemma PingThenPartial(s: Server, fd: int, w: seq<Byte>, rest: seq<Byte>, now: int)
    requires Valid(s) && fd in s.clients && s.clients[fd].buf == []
    requires Plain(w) && Parse(w).name == PING
    requires Framer.Pending(rest) && NUL !in rest && |rest| < 100
    ensures NulFree(w + [LF] + rest)
    ensures HandleData(s, fd, w + [LF] + rest, now, {}) == Refresh(s, fd, rest, now).(log := s.log + [Sent(fd, PongReply)])
  {
    var avail := w + [LF] + rest;
    PartialFrames(w, rest);
    FreshRead(s, fd, avail, now, {});
    PingDispatch(Refresh(s, fd, rest, now), fd, w);
  }

  /** A plain line, its `\n`, and a pending tail frame to that one line, with the tail kept. */
  lemma PartialFrames(w: seq<Byte>, rest: seq<Byte>)
    requires Plain(w) && Framer.Pending(rest) && NUL !in rest && |rest| < 100
    ensures var avail := w + [LF] + rest;
      NulFree(avail) && Framer.Read([], avail) == avail && Framer.Lines(avail) == Framer.Framed([w], rest)
  {
    var avail := w + [LF] + rest;
    PlainLine(w);
    assert forall b :: b in avail <==> b in w || b == LF || b in rest;
    Framer.LinesCons(w, rest);
    assert Framer.NextLine(rest).Incomplete?;
  }

  /** A batch holding one `ping` line is answered with `pong`. */
  lemma PingDispatch(s: Server, fd: int, w: seq<Byte>)
    requires Valid(s) && fd in s.clients && Parse(w).name == PING
    ensures DispatchLines(s, fd, [w], {}) == s.(log := s.log + [Sent(fd, PongReply)])
  {
    PingIsAnswered(s, fd, w, {});
    assert DispatchLines(s, fd, [w], {}) == DispatchLines(HandleLine(s, fd, w, {}), fd, [], {});
  }

  /** The start of a line, `po`, and the read `ping\npo`. */
  const Po: seq<Byte> := Ascii("po")
  const PingPo: seq<Byte> := PING + [LF] + Po

  /**
   One read of `ping\npo`: `ping` is answered with `pong`, and `po` stays
   buffered, waiting for the rest of its line.
   */
  lemma PartialLineWaits(s: Server, fd: int, now: int)
    requires Valid(s) && fd in s.clients && s.clients[fd].buf == []
    ensures NulFree(PingPo) && Framer.Pending(Po)
    ensures HandleData(s, fd, PingPo, now, {}) == Refresh(s, fd, Po, now).(log := s.log + [Sent(fd, PongReply)])
  {
    WordsPlain();
    LowercasePlain("po");
    BareWord(PING);
    PingThenPartial(s, fd, PING, Po, now);
  }

  /** `ping\n` arriving in two reads: `pi`, then `ng\n`. */
  const Pi: seq<Byte> := Ascii("pi")
  const Ng: seq<Byte> := Ascii("ng") + [LF]

  /** `pi` alone is an unfinished line: the read keeps it buffered and dispatches nothing. */
  lemma FirstHalfWaits(s: Server, fd: int, now: int)
    requires Valid(s) && fd in s.clients && s.clients[fd].buf == []
    ensures NulFree(Pi) && Framer.Pending(Pi)
    ensures HandleData(s, fd, Pi, now, {}) == Refresh(s, fd, Pi, now)
  {
    LowercasePlain("pi");
    ReadAll([], Pi);
    FreshRead(s, fd, Pi, now, {});
    assert Framer.NextLine(Pi).Incomplete?;
  }

  /**
   `ping\n` split across two reads as `pi` and `ng\n` is answered with
   `pong` exactly as one read would be, marked alive at the second read,
   with nothing left buffered.
   */
  lemma SplitPing(s: Server, fd: int, t1: int, t2: int)
    requires Valid(s) && fd in s.clients && s.clients[fd].buf == []
    ensures NulFree(Pi) && NulFree(Ng)
    ensures fd in HandleData(s, fd, Pi, t1, {}).clients
    ensures HandleData(HandleData(s, fd, Pi, t1, {}), fd, Ng, t2, {}) == Refresh(s, fd, [], t2).(log := s.log + [Sent(fd, PongReply)])
  {
    FirstHalfWaits(s, fd, t1);
    PiNg();
    TwoReadsFit(s, fd, Pi, t1, Ng, t2, {});
    WordsPlain();
    BareWord(PING);
    PingThenPartial(s, fd, PING, [], t2);
  }

  /** Encoding distributes over concatenation. */
  lemma AsciiAppend(a: string, b: string)
    ensures Ascii(a) + Ascii(b) == Ascii(a + b)
  {
    var l := Ascii(a) + Ascii(b);
    var r := Ascii(a + b);
    forall i | 0 <= i < |r|
      ensures l[i] == r[i]
    {
      if i >= |a| {
        assert (a + b)[i] == b[i - |a|];
      }
    }
  }

  /** `pi` and `ng\n` together are `ping\n`. */
  lemma PiNg()
    ensures NulFree(Ng) && Pi + Ng == PING + [LF] + []
  {
    AsciiAppend("pi", "ng");
    assert "pi" + "ng" == "ping";
    assert NUL !in Ascii("ng") && NUL !in [LF];
  }

  /** What `quit` writes, after a read. */
  lemma QuitLog(s: Server, fd: int, w: seq<Byte>, now: int, broken: set<int>)
    requires Valid(s) && fd in s.clients && fd !in broken && Parse(w).name == QUIT
    ensures HandleLine(Refresh(s, fd, [], now), fd, w, broken).log == s.log + [Sent(fd, ByeReply), Closed(fd)]
  {
    QuitCloses(Refresh(s, fd, [], now), fd, w, broken);
  }

  /** Whom `quit` leaves in the table, after a read. */
  lemma QuitForgets(s: Server, fd: int, w: seq<Byte>, now: int, broken: set<int>)
    requires Valid(s) && fd in s.clients && Parse(w).name == QUIT
    ensures HandleLine(Refresh(s, fd, [], now), fd, w, broken).clients == s.clients - {fd}
  {
    var s1 := Refresh(s, fd, [], now);
    QuitCloses(s1, fd, w, broken);
    assert s1.clients - {fd} == s.clients - {fd};
  }

  /** Any plain word that parses as `quit`, typed by a client whose socket still takes writes. */
  lemma QuitRead(s: Server, fd: int, w: seq<Byte>, now: int, broken: set<int>)
    requires Valid(s) && fd in s.clients && s.clients[fd].buf == [] && fd !in broken
    requires Plain(w) && Parse(w).name == QUIT
    ensures NulFree(w + [LF])
    ensures var s' := HandleData(s, fd, w + [LF], now, broken);
      && s'.log == s.log + [Sent(fd, ByeReply), Closed(fd)]
      && s'.clients == s.clients - {fd}
  {
    NewlineKeepsNulFree(w);
    OneLineRead(s, fd, w, now, broken);
    QuitLog(s, fd, w, now, broken);
    QuitForgets(s, fd, w, now, broken);
  }

  /** `quit\n` is answered with `bye`, then the connection is closed and forgotten. */
  lemma QuitScenario(s: Server, fd: int, now: int)
    requires Valid(s) && fd in s.clients && s.clients[fd].buf == []
    ensures NulFree(QUIT + [LF])
    ensures var s' := HandleData(s, fd, QUIT + [LF], now, {});
      && s'.log == s.log + [Sent(fd, ByeReply), Closed(fd)]
      && s'.clients == s.clients - {fd} && fd !in s'.watched
  {
    WordsPlain();
    BareWord(QUIT);
    QuitRead(s, fd, QUIT, now, {});
  }

  /** The line `foo bar`. */
  const FooBar: seq<Byte> := Ascii("foo") + [SP] + Ascii("bar")

  lemma FooBarParses()
    ensures LF !in FooBar && |FooBar| < Framer.MaxFill && FooBar != []
    ensures FooBar[|FooBar| - 1] != CR && NulFree(FooBar + [LF])
    ensures Parse(FooBar).name !in {PING, PONG, QUIT, BROADCAST}
  {
    LowercasePlain("foo");
    LowercasePlain("bar");
    Joined(Ascii("foo"), Ascii("bar"));
    WordAndArgument(Ascii("foo"), Ascii("bar"));
    WordsDistinct();
  }

  /** `foo bar\n` is not a command: the client gets the list of commands and stays connected. */
  lemma UnknownScenario(s: Server, fd: int, now: int)
    requires Valid(s) && fd in s.clients && s.clients[fd].buf == []
    ensures NulFree(FooBar + [LF])
    ensures HandleData(s, fd, FooBar + [LF], now, {}) == Refresh(s, fd, [], now).(log := s.log + [Sent(fd, UnknownReply)])
  {
    FooBarParses();
    OneLineRead(s, fd, FooBar, now, {});
    OtherIsUnknown(Refresh(s, fd, [], now), fd, FooBar, {});
  }

  lemma AscendingTrio()
    ensures Ascending({4, 5, 6}) == [4, 5, 6]
  {
    IncreasingUnique(Ascending({4, 5, 6}), [4, 5, 6]);
  }

  /** The word `hello`, and the line `broadcast hello`. */
  const Hello: seq<Byte> := Ascii("hello")
  const BroadcastHello: seq<Byte> := BROADCAST + [SP] + Hello

  lemma BroadcastHelloParses()
    ensures LF !in BroadcastHello && |BroadcastHello| < Framer.MaxFill && BroadcastHello != []
    ensures BroadcastHello[|BroadcastHello| - 1] != CR && NulFree(BroadcastHello + [LF])
    ensures Parse(BroadcastHello) == Command(BROADCAST, Some(Hello))
  {
    WordsPlain();
    LowercasePlain("hello");
    Joined(BROADCAST, Hello);
    WordAndArgument(BROADCAST, Hello);
  }

  /** What a `broadcast` writes, after a read. */
  lemma BroadcastLog(s: Server, fd: int, w: seq<Byte>, now: int, broken: set<int>)
    requires Valid(s) && fd in s.clients && Parse(w).name == BROADCAST && Parse(w).arg.Some?
    ensures HandleLine(Refresh(s, fd, [], now), fd, w, broken).log
      == s.log + Deliveries(Ascending(s.clients.Keys), BroadcastText(s.clients[fd].ident, Parse(w).arg.value), broken)
    ensures HandleLine(Refresh(s, fd, [], now), fd, w, broken).clients.Keys == s.clients.Keys - broken
  {
    BroadcastIsFannedOut(Refresh(s, fd, [], now), fd, w, broken);
  }

  /** Any single line that parses as a `broadcast` with an argument, read into an empty buffer. */
  lemma BroadcastRead(s: Server, fd: int, w: seq<Byte>, now: int, broken: set<int>)
    requires Valid(s) && fd in s.clients && s.clients[fd].buf == []
    requires LF !in w && |w| < Framer.MaxFill && w != [] && w[|w| - 1] != CR && NulFree(w + [LF])
    requires Parse(w).name == BROADCAST && Parse(w).arg.Some?
    ensures var s' := HandleData(s, fd, w + [LF], now, broken);
      && s'.log == s.log + Deliveries(Ascending(s.clients.Keys), BroadcastText(s.clients[fd].ident, Parse(w).arg.value), broken)
      && s'.clients.Keys == s.clients.Keys - broken
  {
    OneLineRead(s, fd, w, now, broken);
    BroadcastLog(s, fd, w, now, broken);
  }

  lemma TrioDeliveries(m: seq<Byte>)
    ensures Deliveries(Ascending({4, 5, 6}), m, {}) == [Sent(4, m), Sent(5, m), Sent(6, m)]
  {
    AscendingTrio();
  }

  /**
   With clients on fds 4, 5 and 6 and no failing socket, `broadcast hello`
   from fd 4 reaches all three, the sender included, in ascending fd
   order, and nobody is dropped.
   */
  lemma BroadcastToTrio(s: Server, now: int)
    requires Valid(s) && s.clients.Keys == {4, 5, 6} && s.clients[4].buf == []
    ensures NulFree(BroadcastHello + [LF])
    ensures var s' := HandleData(s, 4, BroadcastHello + [LF], now, {});
      var m := BroadcastText(s.clients[4].ident, Hello);
      && s'.log == s.log + [Sent(4, m), Sent(5, m), Sent(6, m)]
      && s'.clients.Keys == {4, 5, 6}
  {
    BroadcastHelloParses();
    BroadcastRead(s, 4, BroadcastHello, now, {});
    TrioDeliveries(BroadcastText(s.clients[4].ident, Hello));
  }
}

=== FILE: session.dfy ===
/**
 One client's protocol logic on top of the table: `handle_data` (read,
 frame, dispatch), `handle_line` (parse and act, including the broadcast
 fan-out), the keepalive pass, and one iteration of the `select` loop.

 Once a client's record is gone its remaining lines are not processed.
 */
module Session {
  import opened Bytes
  import Framer
  import opened Commands
  import opened Keepalive
  import opened Table

  /** `m` is the least fd of `keys`. */
  predicate Least(m: int, keys: set<int>) {
    m in keys && forall y :: y in keys ==> m <= y
  }

  /** Every non-empty set of fds has a least element. */
  lemma {:induction false} LeastExists(keys: set<int>)
    requires keys != {}
    ensures exists m :: Least(m, keys)
    decreases |keys|
  {
    assert (forall x :: x !in keys) ==> keys == {};
    var x :| x in keys;
    if keys == {x} {
      assert Least(x, keys);
    } else {
      LeastExists(keys - {x});
      var m :| Least(m, keys - {x});
      var least := if x < m then x else m;
      forall y | y in keys
        ensures least <= y
      {
        if y != x {
          assert y in keys - {x};
        }
      }
      assert Least(least, keys);
    }
  }

  /** Strictly ascending fds, so each appears once. */
  predicate Increasing(fds: seq<int>) {
    forall i, j :: 0 <= i < j < |fds| ==> fds[i] < fds[j]
  }

  /** The fds of `keys` in ascending order: the order in which the `for (fd ...)` loops meet them. */
  function Ascending(keys: set<int>): (fds: seq<int>)
    ensures Increasing(fds)
    ensures forall x :: x in fds <==> x in keys
    decreases |keys|
  {
    if keys == {} then []
    else
      LeastExists(keys);
      var m :| Least(m, keys);
      var later := Ascending(keys - {m});
      AscendingCons(m, keys, later);
      [m] + later
  }

  /** The least fd in front of the others in ascending order. */
  lemma AscendingCons(m: int, keys: set<int>, later: seq<int>)
    requires Least(m, keys) && Increasing(later)
    requires forall x :: x in later <==> x in keys - {m}
    ensures Increasing([m] + later)
    ensures forall x :: x in [m] + later <==> x in keys
  {
    var fds := [m] + later;
    forall i, j | 0 <= i < j < |fds|
      ensures fds[i] < fds[j]
    {
      assert fds[j] == later[j - 1] && later[j - 1] in later;
      if i > 0 {
        assert fds[i] == later[i - 1];
      }
    }
    forall x
      ensures x in fds <==> x in keys
    {
      if x in fds && x != m {
        assert x in later;
      }
    }
  }

  /** What each recipient of a fan-out sees: the text, or its disconnection. */
  function Deliveries(fds: seq<int>, text: seq<Byte>, broken: set<int>): (es: seq<Event>)
    ensures |es| == |fds|
  {
    seq(|fds|, i requires 0 <= i < |fds| => if fds[i] in broken then Closed(fds[i]) else Sent(fds[i], text))
  }

  /**
   The broadcast loop of `handle_line` over the fds `fds`, in order: each
   one that still has a record gets the text; a failed write drops only
   that recipient, and the loop carries on.
   */
  function Fanout(s: Server, fds: seq<int>, text: seq<Byte>, broken: set<int>): (s': Server)
    requires Valid(s)
    ensures Valid(s') && s'.lsock == s.lsock && s'.clients.Keys <= s.clients.Keys
    ensures forall x :: x in s'.clients ==> s'.clients[x] == s.clients[x]
    decreases |fds|
  {
    if fds == [] then s
    else Fanout(if fds[0] in s.clients then Write(s, fds[0], text, broken) else s, fds[1..], text, broken)
  }

  /**
   Fanning out to distinct registered fds: each gets the text, or is
   dropped if its write fails, in the given order; nobody else is touched.
   */
  lemma {:induction false} FanoutDelivers(s: Server, fds: seq<int>, text: seq<Byte>, broken: set<int>)
    requires Valid(s) && Increasing(fds)
    requires forall x :: x in fds ==> x in s.clients
    ensures Fanout(s, fds, text, broken).log == s.log + Deliveries(fds, text, broken)
    ensures forall x :: x in Fanout(s, fds, text, broken).clients <==> x in s.clients && !(x in fds && x in broken)
    decreases |fds|
  {
    if fds != [] {
      var s1 := Write(s, fds[0], text, broken);
      var later := fds[1..];
      assert Increasing(later);
      forall x | x in later
        ensures x in s1.clients
      {
        assert x in fds && x != fds[0];
      }
      FanoutDelivers(s1, later, text, broken);
      DeliveriesCons(fds, text, broken);
    }
  }

  lemma DeliveriesCons(fds: seq<int>, text: seq<Byte>, broken: set<int>)
    requires fds != []
    ensures Deliveries(fds, text, broken) == Deliveries([fds[0]], text, broken) + Deliveries(fds[1..], text, broken)
  {
  }

  /** `broadcast`: every client, the sender included, in ascending fd order. */
  function BroadcastAll(s: Server, text: seq<Byte>, broken: set<int>): (s': Server)
    requires Valid(s)
    ensures Valid(s') && s'.lsock == s.lsock && s'.clients.Keys <= s.clients.Keys
    ensures forall x :: x in s'.clients ==> s'.clients[x] == s.clients[x]
  {
    Fanout(s, Ascending(s.clients.Keys), text, broken)
  }

  /** A broadcast reaches every registered client once, in ascending fd order, and drops exactly those whose write fails. */
  lemma BroadcastReachesAll(s: Server, text: seq<Byte>, broken: set<int>)
    requires Valid(s)
    ensures BroadcastAll(s, text, broken).log == s.log + Deliveries(Ascending(s.clients.Keys), text, broken)
    ensures BroadcastAll(s, text, broken).clients.Keys == s.clients.Keys - broken
  {
    FanoutDelivers(s, Ascending(s.clients.Keys), text, broken);
  }

  /**
   How a step may change one record: buffer, name and last activity stay;
   the probe flag stays too, unless it belongs to the client whose line is
   being handled, which may only clear it.
   */
  predicate RecordKept(c: Client, c': Client, mayClear: bool) {
    && c'.buf == c.buf && c'.ident == c.ident && c'.lastSeen == c.lastSeen
    && (if mayClear then c'.awaitingPong ==> c.awaitingPong else c'.awaitingPong == c.awaitingPong)
  }

  /** How a step on behalf of `fd` may change the table: clients only disappear, and survivors keep their records. */
  predicate RecordsKept(s: Server, s': Server, fd: int) {
    && s'.lsock == s.lsock
    && s'.clients.Keys <= s.clients.Keys
    && forall x :: x in s'.clients ==> RecordKept(s.clients[x], s'.clients[x], x == fd)
  }

  /** One action of the dispatch table, performed for the sender `fd`. */
  function Act(s: Server, fd: int, a: Action, broken: set<int>): (s': Server)
    requires Valid(s) && fd in s.clients
    ensures Valid(s') && RecordsKept(s, s', fd)
  {
    match a
    case Reply(text) => Write(s, fd, text, broken)
    case ClearPong => ClearProbe(s, fd)
    case Close => Unregister(s, fd)
    case Broadcast(text) => BroadcastAll(s, text, broken)
  }

  /** `pong`: the sender answered, no probe is outstanding any more. */
  function ClearProbe(s: Server, fd: int): (s': Server)
    requires Valid(s) && fd in s.clients
    ensures Valid(s') && RecordsKept(s, s', fd)
    ensures fd in s'.clients && !s'.clients[fd].awaitingPong && s'.log == s.log
  {
    s.(clients := s.clients[fd := s.clients[fd].(awaitingPong := false)])
  }

  /** The actions of one command in order, stopping once the sender is gone. */
  function Perform(s: Server, fd: int, acts: seq<Action>, broken: set<int>): (s': Server)
    requires Valid(s)
    ensures Valid(s') && RecordsKept(s, s', fd)
    decreases |acts|
  {
    if acts == [] || fd !in s.clients then s
    else Perform(Act(s, fd, acts[0], broken), fd, acts[1..], broken)
  }

  /** `handle_line`: parse one framed line of client `fd` and act on it. */
  function HandleLine(s: Server, fd: int, line: seq<Byte>, broken: set<int>): (s': Server)
    requires Valid(s) && fd in s.clients
    ensures Valid(s') && RecordsKept(s, s', fd)
  {
    Perform(s, fd, Interpret(Parse(line), s.clients[fd].ident), broken)
  }

  /** Every framed line of one read, in order, while the client is still there. */
  function DispatchLines(s: Server, fd: int, lines: seq<seq<Byte>>, broken: set<int>): (s': Server)
    requires Valid(s)
    ensures Valid(s') && RecordsKept(s, s', fd)
    decreases |lines|
  {
    if lines == [] || fd !in s.clients then s
    else DispatchLines(HandleLine(s, fd, lines[0], broken), fd, lines[1..], broken)
  }

  /**
   `handle_data`: a read of nothing (EOF or error) unregisters the client;
   any bytes first mark the client as alive at `now` with no probe
   outstanding, then are framed, and the complete lines are dispatched.
   */
  function HandleData(s: Server, fd: int, avail: seq<Byte>, now: int, broken: set<int>): (s': Server)
    requires Valid(s) && fd in s.clients && NulFree(avail)
    ensures Valid(s') && s'.lsock == s.lsock && s'.clients.Keys <= s.clients.Keys
    ensures avail == [] ==> s' == Unregister(s, fd)
    ensures forall x :: x in s'.clients && x != fd ==> s'.clients[x] == s.clients[x]
    ensures avail != [] && fd in s'.clients ==>
      var c := s.clients[fd];
      s'.clients[fd] == c.(buf := Framer.Lines(c.buf + Framer.Read(c.buf, avail)).rest,
                           lastSeen := now, awaitingPong := false)
  {
    var c := s.clients[fd];
    var got := Framer.Read(c.buf, avail);
    if got == [] then Unregister(s, fd)
    else
      var f := Framer.Lines(c.buf + got);
      var s1 := Refresh(s, fd, f.rest, now);
      var s' := DispatchLines(s1, fd, f.lines, broken);
      if fd in s'.clients then RefreshKept(s1.clients[fd], s'.clients[fd]); s' else s'
  }

  /** A record that only clears the probe flag of a record without one outstanding is that record. */
  lemma RefreshKept(c: Client, c': Client)
    requires !c.awaitingPong && RecordKept(c, c', true)
    ensures c' == c
  {
  }

  /** The reader's record after a read at `now`: `rest` stays buffered, the client is alive and no probe is outstanding. */
  function Refresh(s: Server, fd: int, rest: seq<Byte>, now: int): (s': Server)
    requires Valid(s) && fd in s.clients && Framer.Pending(rest)
    ensures Valid(s') && s'.lsock == s.lsock && s'.log == s.log && s'.clients.Keys == s.clients.Keys
    ensures s'.clients[fd] == s.clients[fd].(buf := rest, lastSeen := now, awaitingPong := false)
    ensures forall x :: x in s'.clients && x != fd ==> s'.clients[x] == s.clients[x]
  {
    s.(clients := s.clients[fd := s.clients[fd].(buf := rest, lastSeen := now, awaitingPong := false)])
  }

  /** The keepalive block for client `fd` at clock reading `now`. */
  function Supervise(s: Server, fd: int, now: int, broken: set<int>): (s': Server)
    requires Valid(s) && fd in s.clients
    ensures Valid(s') && s'.lsock == s.lsock && s'.clients.Keys <= s.clients.Keys
    ensures forall x :: x in s'.clients && x != fd ==> s'.clients[x] == s.clients[x]
    ensures var c := s.clients[fd];
      match Decide(now - c.lastSeen, c.awaitingPong)
      case Quiet => s' == s
      case Probe =>
        if fd in broken then s' == Unregister(s, fd)
        else s'.log == s.log + [Sent(fd, PingText)] && s'.clients == s.clients[fd := c.(awaitingPong := true)]
      case Expire =>
        && fd !in s'.clients && s'.clients.Keys == s.clients.Keys - {fd}
        && s'.log == s.log + (if fd in broken then [Closed(fd)] else [Sent(fd, TimedOutText), Closed(fd)])
  {
    var c := s.clients[fd];
    match Decide(now - c.lastSeen, c.awaitingPong)
    case Quiet => s
    case Probe =>
      var s1 := Write(s, fd, PingText, broken);
      if fd in s1.clients then s1.(clients := s1.clients[fd := c.(awaitingPong := true)]) else s1
    case Expire =>
      Unregister(Write(s, fd, TimedOutText, broken), fd)
  }

  /** What `select` reported for one fd: a pending connection, or bytes (none at EOF). */
  datatype Ready = Incoming(accepted: Accepted) | Readable(avail: seq<Byte>)

  /**
   Readiness that `select` can report for the table `s0` at the top of an
   iteration: only watched fds, a connection on the listening fd only, an
   accepted fd that is not open, and input without NUL bytes.
   */
  predicate ReadyFor(s0: Server, ready: map<int, Ready>) {
    forall fd :: fd in ready ==>
      && fd in s0.watched
      && (fd == s0.lsock <==> ready[fd].Incoming?)
      && (ready[fd].Incoming? && ready[fd].accepted.Connection? ==>
            var csock := ready[fd].accepted.csock;
            0 <= csock && csock != s0.lsock && csock !in s0.clients)
      && (ready[fd].Readable? ==> NulFree(ready[fd].avail))
  }

  /**
   The body of the `for (fd ...)` loop: serve fd if it was ready, then run
   the keepalive block if it is a client. A ready fd whose record was
   already dropped in this iteration is skipped.
   */
  function Visit(s0: Server, s: Server, fd: int, ready: map<int, Ready>, now: int, broken: set<int>): (s': Server)
    requires Valid(s) && ReadyFor(s0, ready) && s.lsock == s0.lsock && 0 <= fd < FdSetSize
    requires fd <= s.lsock ==> s.clients.Keys <= s0.clients.Keys
    ensures Valid(s') && s'.lsock == s.lsock
    ensures fd != s.lsock ==> s'.clients.Keys <= s.clients.Keys
  {
    var s1 :=
      if fd in ready && fd == s.lsock then Accept(s, ready[fd].accepted, now, broken)
      else if fd in ready && fd in s.clients then HandleData(s, fd, ready[fd].avail, now, broken)
      else s;
    if fd != s1.lsock && fd in s1.clients then Supervise(s1, fd, now, broken) else s1
  }

  /** The loop over fds from `fd` up to FD_SETSIZE. */
  function IterateFrom(s0: Server, s: Server, fd: int, ready: map<int, Ready>, now: int, broken: set<int>): (s': Server)
    requires Valid(s) && ReadyFor(s0, ready) && s.lsock == s0.lsock && 0 <= fd <= FdSetSize
    requires fd <= s.lsock ==> s.clients.Keys <= s0.clients.Keys
    ensures Valid(s') && s'.lsock == s.lsock
    decreases FdSetSize - fd
  {
    if fd == FdSetSize then s
    else IterateFrom(s0, Visit(s0, s, fd, ready, now, broken), fd + 1, ready, now, broken)
  }

  /**
   One iteration of the `select` loop at clock reading `now`: the table
   invariant (watched exactly when registered) holds again afterwards.
   */
  function Iterate(s: Server, ready: map<int, Ready>, now: int, broken: set<int>): (s': Server)
    requires Valid(s) && ReadyFor(s, ready)
    ensures Valid(s') && s'.lsock == s.lsock
    ensures forall fd :: fd in s'.watched && fd != s'.lsock <==> fd in s'.clients
  {
    IterateFrom(s, s, 0, ready, now, broken)
  }

  /** Lines are handled one after another: two batches in turn are one batch. */
  lemma {:induction false} DispatchAppend(s: Server, fd: int, l1: seq<seq<Byte>>, l2: seq<seq<Byte>>, broken: set<int>)
    requires Valid(s)
    ensures DispatchLines(s, fd, l1 + l2, broken) == DispatchLines(DispatchLines(s, fd, l1, broken), fd, l2, broken)
    decreases |l1|
  {
    if l1 == [] {
      assert l1 + l2 == l2;
    } else if fd in s.clients {
      assert (l1 + l2)[1..] == l1[1..] + l2;
      DispatchAppend(HandleLine(s, fd, l1[0], broken), fd, l1[1..], l2, broken);
    }
  }

  /** A single action is performed as such. */
  lemma PerformOne(s: Server, fd: int, acts: seq<Action>, broken: set<int>)
    requires Valid(s) && fd in s.clients && |acts| == 1
    ensures Perform(s, fd, acts, broken) == Act(s, fd, acts[0], broken)
  {
    var s1 := Act(s, fd, acts[0], broken);
    assert acts[1..] == [];
    assert Perform(s, fd, acts, broken) == Perform(s1, fd, [], broken);
  }

  /** `ping`, with or without an argument, is answered with `pong` and nothing else. */
  lemma PingIsAnswered(s: Server, fd: int, line: seq<Byte>, broken: set<int>)
    requires Valid(s) && fd in s.clients && Parse(line).name == PING
    ensures var s' := HandleLine(s, fd, line, broken);
      if fd in broken then s' == Unregister(s, fd)
      else s' == s.(log := s.log + [Sent(fd, PongReply)])
  {
    WordsDistinct();
    var acts := Interpret(Parse(line), s.clients[fd].ident);
    assert acts == [Reply(PongReply)];
    PerformOne(s, fd, acts, broken);
  }

  /** `pong` only clears the outstanding probe: nothing is written. */
  lemma PongClearsProbe(s: Server, fd: int, line: seq<Byte>, broken: set<int>)
    requires Valid(s) && fd in s.clients && Parse(line).name == PONG
    ensures var s' := HandleLine(s, fd, line, broken);
      s' == s.(clients := s.clients[fd := s.clients[fd].(awaitingPong := false)])
  {
    WordsDistinct();
    var acts := Interpret(Parse(line), s.clients[fd].ident);
    assert acts == [ClearPong];
    PerformOne(s, fd, acts, broken);
  }

  /** `quit` says `bye` and then the client is gone from the table and the watch set. */
  lemma QuitCloses(s: Server, fd: int, line: seq<Byte>, broken: set<int>)
    requires Valid(s) && fd in s.clients && Parse(line).name == QUIT
    ensures var s' := HandleLine(s, fd, line, broken);
      && fd !in s'.clients && fd !in s'.watched
      && s'.clients == s.clients - {fd}
      && s'.log == s.log + (if fd in broken then [] else [Sent(fd, ByeReply)]) + [Closed(fd)]
  {
    WordsDistinct();
    var acts := Interpret(Parse(line), s.clients[fd].ident);
    assert acts == [Reply(ByeReply), Close];
    var s1 := Write(s, fd, ByeReply, broken);
    assert Perform(s, fd, acts, broken) == Perform(s1, fd, [Close], broken);
    if fd in s1.clients {
      PerformOne(s1, fd, [Close], broken);
    }
  }

  /**
   `broadcast` with an argument, even an empty one, sends
   `broadcast <ident> <arg>` to every client in ascending fd order, the
   sender included, and drops exactly the recipients whose write fails.
   */
  lemma BroadcastIsFannedOut(s: Server, fd: int, line: seq<Byte>, broken: set<int>)
    requires Valid(s) && fd in s.clients
    requires Parse(line).name == BROADCAST && Parse(line).arg.Some?
    ensures var s' := HandleLine(s, fd, line, broken);
      && s'.log == s.log + Deliveries(Ascending(s.clients.Keys),
                                      BroadcastText(s.clients[fd].ident, Parse(line).arg.value), broken)
      && s'.clients.Keys == s.clients.Keys - broken
      && forall x :: x in s'.clients ==> s'.clients[x] == s.clients[x]
  {
    WordsDistinct();
    var text := BroadcastText(s.clients[fd].ident, Parse(line).arg.value);
    var acts := Interpret(Parse(line), s.clients[fd].ident);
    assert acts == [Broadcast(text)];
    PerformOne(s, fd, acts, broken);
    BroadcastReachesAll(s, text, broken);
  }

  /** Any other word, or `broadcast` with no argument, gets the list of commands and changes nothing else. */
  lemma OtherIsUnknown(s: Server, fd: int, line: seq<Byte>, broken: set<int>)
    requires Valid(s) && fd in s.clients
    requires Parse(line).name !in {PING, PONG, QUIT}
    requires Parse(line).name == BROADCAST ==> Parse(line).arg.None?
    ensures var s' := HandleLine(s, fd, line, broken);
      if fd in broken then s' == Unregister(s, fd)
      else s' == s.(log := s.log + [Sent(fd, UnknownReply)])
  {
    var acts := Interpret(Parse(line), s.clients[fd].ident);
    assert acts == [Reply(UnknownReply)];
    PerformOne(s, fd, acts, broken);
  }

  /**
   Inbound bytes keep a client alive: right after a read at `now`, no
   keepalive pass before `now + PingAfter` does anything to it.
   */
  lemma ActivityDefersProbe(s: Server, fd: int, avail: seq<Byte>, now: int, broken: set<int>, later: int)
    requires Valid(s) && fd in s.clients && NulFree(avail) && avail != []
    requires fd in HandleData(s, fd, avail, now, broken).clients
    requires later < now + PingAfter
    ensures var s' := HandleData(s, fd, avail, now, broken);
      Supervise(s', fd, later, broken) == s'
  {
  }

  /**
   One keepalive pass does what the verdict says: it removes the client on
   an expiry, or on a probe whose write fails; otherwise it keeps the record
   with the probe flag set exactly when a probe is (or already was)
   outstanding.
   */
  lemma SuperviseStep(s: Server, fd: int, now: int, broken: set<int>)
    requires Valid(s) && fd in s.clients
    ensures var c := s.clients[fd];
      var v := Decide(now - c.lastSeen, c.awaitingPong);
      var s' := Supervise(s, fd, now, broken);
      && (fd !in s'.clients <==> v == Expire || (v == Probe && fd in broken))
      && (fd in s'.clients ==> s'.clients[fd] == c.(awaitingPong := c.awaitingPong || v == Probe))
  {
  }

  /** Successive keepalive passes over client `fd` at the clock readings `times`, while it is registered. */
  function Passes(s: Server, fd: int, times: seq<int>, broken: set<int>): (s': Server)
    requires Valid(s)
    ensures Valid(s') && s'.lsock == s.lsock && s'.clients.Keys <= s.clients.Keys
    decreases |times|
  {
    if times == [] || fd !in s.clients then s
    else Passes(Supervise(s, fd, times[0], broken), fd, times[1..], broken)
  }

  /**
   The server's passes over a client that sends nothing follow the verdict
   run of `Keepalive.SilentRun`: the client is gone afterwards exactly when
   that run reaches an expiry, or reaches a probe whose write fails.
   */
  lemma {:induction false} PassesFollowSilentRun(s: Server, fd: int, times: seq<int>, broken: set<int>)
    requires Valid(s) && fd in s.clients
    ensures var c := s.clients[fd];
      var run := SilentRun(c.lastSeen, c.awaitingPong, times);
      fd !in Passes(s, fd, times, broken).clients <==> Expire in run || (fd in broken && Probe in run)
    decreases |times|
  {
    if times != [] {
      var c := s.clients[fd];
      var v := Decide(times[0] - c.lastSeen, c.awaitingPong);
      var s1 := Supervise(s, fd, times[0], broken);
      SuperviseStep(s, fd, times[0], broken);
      if v != Expire {
        var a' := c.awaitingPong || v == Probe;
        assert SilentRun(c.lastSeen, c.awaitingPong, times) == [v] + SilentRun(c.lastSeen, a', times[1..]);
        if fd in s1.clients {
          PassesFollowSilentRun(s1, fd, times[1..], broken);
        }
      }
    }
  }

  /** A registered client that sends nothing is dropped by the second pass past the deadline at the latest. */
  lemma SilentClientDropped(s: Server, fd: int, times: seq<int>, i: nat, j: nat, broken: set<int>)
    requires Valid(s) && fd in s.clients && i < j < |times|
    requires times[i] - s.clients[fd].lastSeen >= PingAfter + TimeoutSecs
    requires times[j] - s.clients[fd].lastSeen >= PingAfter + TimeoutSecs
    ensures fd !in Passes(s, fd, times, broken).clients
  {
    var c := s.clients[fd];
    SilentClientExpires(c.lastSeen, c.awaitingPong, times, i, j);
    PassesFollowSilentRun(s, fd, times, broken);
  }

  /** The reader's refresh while it is still registered; once it is gone, nothing. */
  function MarkAlive(s: Server, fd: int, rest: seq<Byte>, now: int): (s': Server)
    requires Valid(s) && Framer.Pending(rest)
    ensures Valid(s') && s'.clients.Keys == s.clients.Keys
  {
    if fd in s.clients then Refresh(s, fd, rest, now) else s
  }

  /** Refreshing twice keeps only the second refresh. */
  lemma MarkAliveTwice(s: Server, fd: int, r1: seq<Byte>, t1: int, r2: seq<Byte>, t2: int)
    requires Valid(s) && Framer.Pending(r1) && Framer.Pending(r2)
    ensures MarkAlive(MarkAlive(s, fd, r1, t1), fd, r2, t2) == MarkAlive(s, fd, r2, t2)
  {
    if fd in s.clients {
      var c := s.clients[fd];
      assert s.clients[fd := c.(buf := r1, lastSeen := t1, awaitingPong := false)][fd := c.(buf := r2, lastSeen := t2, awaitingPong := false)]
        == s.clients[fd := c.(buf := r2, lastSeen := t2, awaitingPong := false)];
    }
  }

  /** Unregistering any client commutes with the reader's refresh. */
  lemma UnregisterMarkAlive(s: Server, fd: int, rest: seq<Byte>, now: int, x: int)
    requires Valid(s) && Framer.Pending(rest) && x in s.clients
    ensures Unregister(MarkAlive(s, fd, rest, now), x) == MarkAlive(Unregister(s, x), fd, rest, now)
  {
    if fd in s.clients {
      var v := s.clients[fd].(buf := rest, lastSeen := now, awaitingPong := false);
      if x == fd {
        assert s.clients[fd := v] - {fd} == s.clients - {fd};
      } else {
        assert s.clients[fd := v] - {x} == (s.clients - {x})[fd := v];
      }
    }
  }

  /** A write to any client commutes with the reader's refresh. */
  lemma WriteMarkAlive(s: Server, fd: int, rest: seq<Byte>, now: int, x: int, text: seq<Byte>, broken: set<int>)
    requires Valid(s) && Framer.Pending(rest) && x in s.clients
    ensures Write(MarkAlive(s, fd, rest, now), x, text, broken) == MarkAlive(Write(s, x, text, broken), fd, rest, now)
  {
    if x in broken {
      UnregisterMarkAlive(s, fd, rest, now, x);
    }
  }

  /** A fan-out commutes with the reader's refresh: it reads no buffer and no clock. */
  lemma {:induction false} FanoutMarkAlive(s: Server, fd: int, rest: seq<Byte>, now: int, fds: seq<int>, text: seq<Byte>, broken: set<int>)
    requires Valid(s) && Framer.Pending(rest)
    ensures Fanout(MarkAlive(s, fd, rest, now), fds, text, broken) == MarkAlive(Fanout(s, fds, text, broken), fd, rest, now)
    decreases |fds|
  {
    if fds != [] {
      var x := fds[0];
      if x in s.clients {
        WriteMarkAlive(s, fd, rest, now, x, text, broken);
        FanoutMarkAlive(Write(s, x, text, broken), fd, rest, now, fds[1..], text, broken);
      } else {
        FanoutMarkAlive(s, fd, rest, now, fds[1..], text, broken);
      }
    }
  }

  /** One action of the reader commutes with its refresh. */
  lemma ActMarkAlive(s: Server, fd: int, rest: seq<Byte>, now: int, a: Action, broken: set<int>)
    requires Valid(s) && Framer.Pending(rest) && fd in s.clients
    ensures Act(MarkAlive(s, fd, rest, now), fd, a, broken) == MarkAlive(Act(s, fd, a, broken), fd, rest, now)
  {
    match a
    case Reply(text) => WriteMarkAlive(s, fd, rest, now, fd, text, broken);
    case ClearPong =>
      var c := s.clients[fd];
      assert s.clients[fd := c.(buf := rest, lastSeen := now, awaitingPong := false)][fd := c.(buf := rest, lastSeen := now, awaitingPong := false)]
        == s.clients[fd := c.(awaitingPong := false)][fd := c.(buf := rest, lastSeen := now, awaitingPong := false)];
    case Close => UnregisterMarkAlive(s, fd, rest, now, fd);
    case Broadcast(text) =>
      assert MarkAlive(s, fd, rest, now).clients.Keys == s.clients.Keys;
      FanoutMarkAlive(s, fd, rest, now, Ascending(s.clients.Keys), text, broken);
  }

  /** The actions of one command commute with the reader's refresh. */
  lemma {:induction false} PerformMarkAlive(s: Server, fd: int, rest: seq<Byte>, now: int, acts: seq<Action>, broken: set<int>)
    requires Valid(s) && Framer.Pending(rest)
    ensures Perform(MarkAlive(s, fd, rest, now), fd, acts, broken) == MarkAlive(Perform(s, fd, acts, broken), fd, rest, now)
    decreases |acts|
  {
    if acts != [] && fd in s.clients {
      ActMarkAlive(s, fd, rest, now, acts[0], broken);
      PerformMarkAlive(Act(s, fd, acts[0], broken), fd, rest, now, acts[1..], broken);
    }
  }

  /**
   Dispatching lines commutes with the reader's refresh: what a line does
   depends on the reader's name, never on its buffer, clock or probe flag.
   */
  lemma {:induction false} DispatchMarkAlive(s: Server, fd: int, rest: seq<Byte>, now: int, lines: seq<seq<Byte>>, broken: set<int>)
    requires Valid(s) && Framer.Pending(rest)
    ensures DispatchLines(MarkAlive(s, fd, rest, now), fd, lines, broken) == MarkAlive(DispatchLines(s, fd, lines, broken), fd, rest, now)
    decreases |lines|
  {
    if lines != [] && fd in s.clients {
      var acts := Interpret(Parse(lines[0]), s.clients[fd].ident);
      PerformMarkAlive(s, fd, rest, now, acts, broken);
      DispatchMarkAlive(HandleLine(s, fd, lines[0], broken), fd, rest, now, lines[1..], broken);
    }
  }

  /** A read of at most the room left takes all of the bytes offered. */
  lemma ReadAll(buf: seq<Byte>, avail: seq<Byte>)
    requires |buf| + |avail| <= Framer.MaxFill
    ensures Framer.Read(buf, avail) == avail
  {
  }

  /** A non-empty read refreshes the reader, then dispatches the lines framed from its buffer and the bytes read. */
  lemma ReadDispatches(s: Server, fd: int, avail: seq<Byte>, now: int, broken: set<int>)
    requires Valid(s) && fd in s.clients && NulFree(avail) && avail != []
    ensures var c := s.clients[fd];
      var f := Framer.Lines(c.buf + Framer.Read(c.buf, avail));
      HandleData(s, fd, avail, now, broken) == DispatchLines(Refresh(s, fd, f.rest, now), fd, f.lines, broken)
  {
  }

  /** Refreshing the reader after it dispatched lines is refreshing it before: the lines never look at the refreshed fields. */
  lemma RefreshAfterDispatch(s: Server, fd: int, r1: seq<Byte>, t1: int, r2: seq<Byte>, t2: int, lines: seq<seq<Byte>>, broken: set<int>)
    requires Valid(s) && fd in s.clients && Framer.Pending(r1) && Framer.Pending(r2)
    requires fd in DispatchLines(Refresh(s, fd, r1, t1), fd, lines, broken).clients
    ensures Refresh(DispatchLines(Refresh(s, fd, r1, t1), fd, lines, broken), fd, r2, t2)
         == DispatchLines(Refresh(s, fd, r2, t2), fd, lines, broken)
  {
    assert MarkAlive(s, fd, r1, t1) == Refresh(s, fd, r1, t1);
    DispatchMarkAlive(Refresh(s, fd, r1, t1), fd, r2, t2, lines, broken);
    MarkAliveTwice(s, fd, r1, t1, r2, t2);
  }

  /**
   Reads compose at the server: when the client survives a first read, a
   second read leaves the server as one read would that delivered both
   chunks at the later time, handling the lines framed from the
   concatenated bytes, whatever the split.
   */
  lemma {:induction false} TwoReadsAsOne(s: Server, fd: int, a1: seq<Byte>, now1: int, a2: seq<Byte>, now2: int, broken: set<int>)
    requires Valid(s) && fd in s.clients && NulFree(a1) && NulFree(a2) && a1 != [] && a2 != []
    requires fd in HandleData(s, fd, a1, now1, broken).clients
    ensures var c := s.clients[fd];
      var s1 := HandleData(s, fd, a1, now1, broken);
      var f := Framer.Lines(c.buf + Framer.Read(c.buf, a1) + Framer.Read(s1.clients[fd].buf, a2));
      HandleData(s1, fd, a2, now2, broken) == DispatchLines(Refresh(s, fd, f.rest, now2), fd, f.lines, broken)
  {
    var c := s.clients[fd];
    var g1 := Framer.Read(c.buf, a1);
    var f1 := Framer.Lines(c.buf + g1);
    var s1 := HandleData(s, fd, a1, now1, broken);
    ReadDispatches(s, fd, a1, now1, broken);
    assert s1.clients[fd].buf == f1.rest;
    var g2 := Framer.Read(f1.rest, a2);
    var f2 := Framer.Lines(f1.rest + g2);
    ReadDispatches(s1, fd, a2, now2, broken);
    RefreshAfterDispatch(s, fd, f1.rest, now1, f2.rest, now2, f1.lines, broken);
    DispatchAppend(Refresh(s, fd, f2.rest, now2), fd, f1.lines, f2.lines, broken);
    Framer.LinesAppend(c.buf + g1, g2);
  }

  /** When both chunks fit in the buffer together, two reads are one `HandleData` of their concatenation. */
  lemma TwoReadsFit(s: Server, fd: int, a1: seq<Byte>, now1: int, a2: seq<Byte>, now2: int, broken: set<int>)
    requires Valid(s) && fd in s.clients && NulFree(a1) && NulFree(a2) && a1 != [] && a2 != []
    requires fd in HandleData(s, fd, a1, now1, broken).clients
    requires |s.clients[fd].buf| + |a1| + |a2| <= Framer.MaxFill
    ensures HandleData(HandleData(s, fd, a1, now1, broken), fd, a2, now2, broken) == HandleData(s, fd, a1 + a2, now2, broken)
  {
    var c := s.clients[fd];
    var s1 := HandleData(s, fd, a1, now1, broken);
    ReadKeepsShort(s, fd, a1, now1, broken);
    FitFraming(c.buf, s1.clients[fd].buf, a1, a2);
    TwoReadsAsOne(s, fd, a1, now1, a2, now2, broken);
    ReadDispatches(s, fd, a1 + a2, now2, broken);
  }

  /** After a read the buffer holds no more than it held plus the bytes offered. */
  lemma ReadKeepsShort(s: Server, fd: int, avail: seq<Byte>, now: int, broken: set<int>)
    requires Valid(s) && fd in s.clients && NulFree(avail) && avail != []
    requires fd in HandleData(s, fd, avail, now, broken).clients
    ensures |HandleData(s, fd, avail, now, broken).clients[fd].buf| <= |s.clients[fd].buf| + |avail|
  {
  }

  /** Two reads that fit take all their bytes, as one read of both would. */
  lemma FitFraming(buf: seq<Byte>, b1: seq<Byte>, a1: seq<Byte>, a2: seq<Byte>)
    requires |buf| + |a1| + |a2| <= Framer.MaxFill && |b1| <= |buf| + |a1|
    ensures buf + Framer.Read(buf, a1) + Framer.Read(b1, a2) == buf + Framer.Read(buf, a1 + a2)
  {
    ReadAll(buf, a1);
    ReadAll(b1, a2);
    ReadAll(buf, a1 + a2);
  }
}

=== FILE: table.dfy ===
/**
 The connection table of `process_connections`: a record per client fd,
 kept in step with the `select` watch set, with registration in
 `accept_connection`, removal in `handle_client_exit`, and `do_write`.

 Writes are an output log. Whether a write fails is an input: the set
 `broken` of fds whose peer is gone.
 */
module Table {
  import opened Bytes
  import Framer
  import Keepalive

  /** The capacity of an `fd_set` (glibc's FD_SETSIZE). */
  const FdSetSize := 1024

  /** `struct client_data`: buffered input, peer name, last activity, probe outstanding. */
  datatype Client = Client(buf: seq<Byte>, ident: seq<Byte>, lastSeen: int, awaitingPong: bool)

  /** One observable effect on a descriptor. */
  datatype Event =
    | Sent(fd: int, data: seq<Byte>)   // a successful write()
    | Closed(fd: int)                  // close()

  /** The listening socket, the table, the watch set and everything written so far. */
  datatype Server = Server(lsock: int, clients: map<int, Client>, watched: set<int>, log: seq<Event>)

  /**
   The table invariant: the listening fd is watched and has no record; any
   other fd is watched exactly when it has a record; every record sits below
   FD_SETSIZE and holds a buffer that can wait for the next read.
   */
  predicate Valid(s: Server) {
    && 0 <= s.lsock < FdSetSize
    && s.lsock !in s.clients
    && s.watched == s.clients.Keys + {s.lsock}
    && forall fd :: fd in s.clients ==> 0 <= fd < FdSetSize && Framer.Pending(s.clients[fd].buf)
  }

  /** `handle_client_exit`: drop the record and the watch bit, close the fd. */
  function Unregister(s: Server, fd: int): (s': Server)
    requires fd != s.lsock
    ensures fd !in s'.clients && fd !in s'.watched
    ensures s'.lsock == s.lsock && s'.clients.Keys == s.clients.Keys - {fd}
    ensures forall x :: x in s'.clients ==> s'.clients[x] == s.clients[x]
    ensures Valid(s) ==> Valid(s')
    ensures fd in s.clients ==> s'.log == s.log + [Closed(fd)]
    ensures Valid(s) && fd !in s.clients ==> s' == s
  {
    if fd in s.clients then
      s.(clients := s.clients - {fd}, watched := s.watched - {fd}, log := s.log + [Closed(fd)])
    else
      s.(watched := s.watched - {fd})
  }

  /** Unregistering an fd a second time changes nothing. */
  lemma UnregisterTwice(s: Server, fd: int)
    requires Valid(s) && fd != s.lsock
    ensures Unregister(Unregister(s, fd), fd) == Unregister(s, fd)
  {
  }

  /** `do_write`: append to the log, or unregister the client when the write fails. */
  function Write(s: Server, fd: int, data: seq<Byte>, broken: set<int>): (s': Server)
    requires fd in s.clients && fd != s.lsock
    ensures s'.lsock == s.lsock && s'.clients.Keys <= s.clients.Keys
    ensures Valid(s) ==> Valid(s')
    ensures fd !in broken ==> s' == s.(log := s.log + [Sent(fd, data)])
    ensures fd in broken ==> s' == Unregister(s, fd) && s'.log == s.log + [Closed(fd)]
  {
    if fd in broken then Unregister(s, fd) else s.(log := s.log + [Sent(fd, data)])
  }

  /** What `accept()` returned. */
  datatype Accepted = Refused | Connection(csock: int, ident: seq<Byte>)

  /**
   `accept_connection`: a failed accept changes nothing; an fd at or above
   FD_SETSIZE is closed at once; any other fd gets a fresh record, a watch
   bit and a `ping` greeting.
   */
  function Accept(s: Server, a: Accepted, now: int, broken: set<int>): (s': Server)
    requires Valid(s)
    requires a.Connection? ==> 0 <= a.csock && a.csock != s.lsock && a.csock !in s.clients
    ensures Valid(s') && s'.lsock == s.lsock
    ensures a.Refused? ==> s' == s
    ensures a.Connection? && a.csock >= FdSetSize ==>
      s'.clients == s.clients && s'.watched == s.watched && s'.log == s.log + [Closed(a.csock)]
    ensures a.Connection? && a.csock < FdSetSize && a.csock !in broken ==>
      && s'.clients == s.clients[a.csock := Client([], a.ident, now, false)]
      && s'.watched == s.watched + {a.csock}
      && s'.log == s.log + [Sent(a.csock, Keepalive.PingText)]
    ensures a.Connection? && a.csock < FdSetSize && a.csock in broken ==>
      s'.clients == s.clients && s'.watched == s.watched && s'.log == s.log + [Closed(a.csock)]
  {
    match a
    case Refused => s
    case Connection(csock, ident) =>
      if csock >= FdSetSize then s.(log := s.log + [Closed(csock)])
      else
        var s1 := s.(clients := s.clients[csock := Client([], ident, now, false)],
                     watched := s.watched + {csock});
        Write(s1, csock, Keepalive.PingText, broken)
  }
}
